=== FILE: README.md ===
# Catalog of a small e-commerce API, modelled in Dafny

This project models the catalog of a Django REST e-commerce backend. It covers
three parts.

- **Store.** The `Category` and `Product` records form an immutable store. The
  store invariant says category names and slugs are unique, prices fit a
  12-digit decimal with 2 places (held as integer cents), image URLs have at
  most 200 characters, stock is a non-negative integer, and every product's
  category exists. The model has
  add-category, delete-category (with `on_delete=PROTECT`) and delete-product
  operations. Products list newest first by default.
- **Product serializer.** It covers which declared fields a client may write,
  the hand-written `ProductSerializer.validate`, and the create and update
  paths that build a product row from a request body. It also covers the
  `category_name` that a response reads from the linked category.
- **Product list view.** Each `ProductFilter` parameter is a predicate on a
  product, and the filters run one after another. The model also covers the
  ordering whitelists of the product and category views.

Modules:

- `Wrappers` (`wrappers.dfy`) holds `Option` and `Result`.
- `Subsequences` (`subsequences.dfy`) defines order-preserving selection and
  the lemmas about it.
- `Text` (`text.dfy`) covers how the framework's text fields read a value:
  surrounding whitespace is stripped, and an empty result is blank.
- `CatalogModels` (`catalog_models.dfy`) covers `catalog/models.py`.
- `CatalogSerializers` (`catalog_serializers.dfy`) covers
  `catalog/serializers.py`.
- `CatalogViews` (`catalog_views.dfy`) covers `catalog/views.py`.

Modelling choices:

- A price is an integer number of cents. `DecimalField(max_digits=12,
  decimal_places=2)` then means |cents| < 10^12.
- Field names are the enumeration `Field`. `Field.Key()` gives the name the
  API uses (`CategoryId` is `"category"`).
- The database hands out ids. The store keeps the next free id for each table.
- `auto_now` and `auto_now_add` read the clock. Operations take the current
  time as an integer parameter `now`.
- `iexact` is equality after ASCII case folding. Slugs are ASCII, because
  `SlugField` accepts only letters, digits, `-` and `_`.
- A filter parameter whose value is empty is skipped before its filter runs.
  `category_slug` is a text filter, so its value is first stripped of
  surrounding whitespace. `category_slug=" books"` therefore filters like
  `books`, and an empty or whitespace-only value does not filter.
  `in_stock=false` does reach `filter_in_stock`, which returns the listing
  unchanged.
- Request bodies are modelled as JSON objects. A key is either absent or holds
  a value; JSON `null` is not modelled.
- Characters are Unicode scalar values, so a surrogate code point cannot occur
  in a value. The framework's check against surrogates therefore has nothing
  to refuse.
- The framework runs its own per-field checks before `validate`. They come
  from the model declarations and are modelled as `FieldErrors` (products) and
  `CategoryFieldErrors` (categories). A request that fails them never reaches
  `validate`. The checks are:
  - On a full write (create, or a non-partial update), name, price and
    category must be sent. These three fields have no default and no
    `blank=True`.
  - Text values are read with surrounding whitespace stripped (`Text.Trim`).
  - Category name, category slug and product name may not be blank once
    stripped.
  - No text value may hold the NUL character: category name and slug,
    product name, description and image URL.
  - Lengths must fit their columns: 120 for a category name, 140 for a slug,
    200 for a product name, and 200 for an image URL (the default
    `max_length` of `URLField`).
  - A price may have at most 12 digits.
  - The category id must exist.
  - Stock may not be negative.
  - Category names and slugs must be unique, compared after stripping.
- Because the framework already demands name, price and category on create,
  the only required-field error `validate` can still raise is the one for
  stock_qty (`CatalogSerializers.CreateMissingStockReportedByValidate`). So a
  create always sends stock_qty, and the model default of 0 (models.py line
  15) is never used through the API.
- Errors from the framework's checks are modelled as the set of field keys
  they are reported under, not their messages.

## Model

| member | source | states |
|---|---|---|
| CatalogModels.PriceBound | ecommerce_api/catalog/models.py:13 | the cent bound used by the store is 10 to the power of the declared 12 digits; 9,999,999,999.99 fits and 10,000,000,000.00 does not |
| Text.Trim | ecommerce_api/catalog/models.py:5-6 | the stripped value is a slice of the input with only whitespace cut away on either side and none left at either end; it is empty exactly when the value is all whitespace, and an unpadded value comes back unchanged |
| Text.TrimCharacterised | ecommerce_api/catalog/models.py:5-6 | any slice with whitespace only outside it and none at its own ends is the stripped value, so the contract of `Trim` fixes the result |
| Text.TrimIgnoresLeadingSpace | ecommerce_api/catalog/models.py:5-6 | whitespace in front of a value does not change what is read |
| Text.TrimIgnoresTrailingSpace | ecommerce_api/catalog/models.py:5-6 | whitespace after a value does not change what is read |
| Text.TrimIdempotent | ecommerce_api/catalog/views.py:10 | stripping a stripped value changes nothing |
| Text.TrimKeepsNonSpace | ecommerce_api/catalog/models.py:5-6 | a character that is not whitespace, NUL among them, is in the stripped value exactly when it is in the value |
| CatalogModels.EmptyStore | ecommerce_api/catalog/models.py:4-19 | the empty catalog satisfies every table invariant |
| CatalogModels.FindCategory | ecommerce_api/catalog/models.py:14 | the foreign-key lookup finds a category with that id exactly when the table holds one |
| CatalogModels.CategoryFieldErrors | ecommerce_api/catalog/models.py:5-6 | each value is read stripped of surrounding whitespace; "name" is flagged exactly when the name is blank, over 120 characters, holds a NUL or equals a stored name, and "slug" exactly when the slug is blank, over 140 characters, holds a NUL or equals a stored slug |
| CatalogModels.AddCategory | ecommerce_api/catalog/models.py:4-7 | adding fails exactly when the stripped name or slug is blank, too long, holds a NUL or is already taken; on success the stripped values are stored under a fresh id with the clock's time, products are unchanged, and names and slugs stay non-blank and unique |
| CatalogModels.BlankCategoryRejected | ecommerce_api/catalog/models.py:5-6 | an empty or whitespace-only name or slug is refused under its own key |
| CatalogModels.NullCharCategoryRejected | ecommerce_api/catalog/models.py:5-6 | a name or slug holding a NUL anywhere is refused under its own key |
| CatalogModels.PaddedNameActsAsTrimmed | ecommerce_api/catalog/models.py:5 | a name with leading whitespace is treated exactly like the stripped name, so " Books" is refused when "Books" exists |
| CatalogModels.AddProduct | ecommerce_api/catalog/models.py:10-19 | inserting a row whose name, price and image URL fit and whose category exists keeps the invariant; the new id is distinct from every existing one |
| CatalogModels.ReplaceProduct | ecommerce_api/catalog/models.py:10-19 | overwriting a row with one of the same id keeps the invariant, and no other row or category changes |
| CatalogModels.ReferencingProducts | ecommerce_api/catalog/models.py:14 | lists the ids of all products that point at the category and no others; the list is empty exactly when none does |
| CatalogModels.RemoveCategory | ecommerce_api/catalog/models.py:14 | removal keeps every category with a different id, in order, and drops the ones with that id |
| CatalogModels.DeleteCategory | ecommerce_api/catalog/models.py:14 | deleting an unknown id is NotFound; deleting a referenced category fails with Protected, which lists exactly the ids of the referencing products; otherwise only that category disappears, every product is unchanged, and the invariant holds |
| CatalogModels.SubsequenceCategoriesUnique | ecommerce_api/catalog/models.py:5-6 | dropping categories never breaks uniqueness of ids, names or slugs |
| CatalogModels.RemoveProduct | ecommerce_api/catalog/views.py:22-23 | removal keeps exactly the products with a different id, in order |
| CatalogModels.SubsequenceProductIdsUnique | ecommerce_api/catalog/models.py:10 | dropping products keeps product ids unique |
| CatalogModels.DeleteProduct | ecommerce_api/catalog/views.py:22-23 | deleting a product fails exactly when no product has that id; otherwise only that product goes and the categories are unchanged |
| CatalogModels.InsertByAge | ecommerce_api/catalog/models.py:22 | inserting into a newest-first list gives a newest-first list with the same elements plus the new one, headed by the new row or the old head |
| CatalogModels.DefaultOrder | ecommerce_api/catalog/models.py:22 | the default listing is a permutation of the table ordered by created_at, newest first |
| CatalogModels.SubsequenceNewestFirst | ecommerce_api/catalog/models.py:22 | any subsequence of a newest-first listing is newest first |
| CatalogSerializers.CategoryWritableFields | ecommerce_api/catalog/serializers.py:8-9 | of id, name, slug and created_at, a category request may write only name and slug |
| CatalogSerializers.ProductWritableFields | ecommerce_api/catalog/serializers.py:12-18 | a product request may write name, description, price, category, stock_qty, image_url and is_active; never id, created_at, updated_at or category_name |
| CatalogSerializers.WritableKeysOfBody | ecommerce_api/catalog/serializers.py:12-18 | the writable fields of a body, as keys, are the keys sent intersected with the writable set |
| CatalogSerializers.Deserialize | ecommerce_api/catalog/serializers.py:12-18 | the validated data has exactly the writable keys the client sent; values are as sent, with name, description and image_url stripped of surrounding whitespace |
| CatalogSerializers.ReadOnlyFieldsIgnored | ecommerce_api/catalog/serializers.py:12-18 | two bodies that differ only in id, category_name, created_at or updated_at give the same validated data |
| CatalogSerializers.FirstMissing | ecommerce_api/catalog/serializers.py:23-24 | reports no field exactly when all required fields are present; otherwise reports a missing one with every earlier one present |
| CatalogSerializers.Validate | ecommerce_api/catalog/serializers.py:20-28 | succeeds exactly when, on create, all of name/price/stock_qty/category are present and no price below zero is sent; on success returns the data unchanged; a "required" error is only on create and names a missing required field; any other error is the "price" error for a negative price |
| CatalogSerializers.MissingFieldRejected | ecommerce_api/catalog/serializers.py:22-25 | on create, a payload missing any required field is rejected with the "This field is required." message |
| CatalogSerializers.FirstMissingFieldReported | ecommerce_api/catalog/serializers.py:23-25 | when several are missing, the error is keyed by the first missing one in the order name, price, stock_qty, category |
| CatalogSerializers.CompleteCreateAccepted | ecommerce_api/catalog/serializers.py:22-28 | all four required fields with a price of at least zero pass on create and come back unchanged |
| CatalogSerializers.UpdateNeverRequiresFields | ecommerce_api/catalog/serializers.py:22 | with an instance, validation fails only for a negative price, never for missing fields |
| CatalogSerializers.NegativePriceRejected | ecommerce_api/catalog/serializers.py:26-27 | a negative price is always rejected; on update, or on create with the other required fields present, the error is the "price" error |
| CatalogSerializers.ZeroPriceAccepted | ecommerce_api/catalog/serializers.py:26 | the check is strict: price 0 passes on update, and on create when the other required fields are present |
| CatalogSerializers.ValidateIdempotent | ecommerce_api/catalog/serializers.py:28 | validated data has the same keys as the input, and validating it again gives the same result |
| CatalogSerializers.FieldErrors | ecommerce_api/catalog/models.py:11-16 | on a full write, a missing name, price or category is flagged; a blank or over-200-character name, a price over 12 digits, a category id that does not exist, a negative stock_qty, an image_url over 200 characters, and a name, description or image_url holding a NUL are flagged; each under its own key; a partial write flags only keys that were sent |
| CatalogSerializers.Apply | ecommerce_api/catalog/serializers.py:11-18 | saving sets every key the data holds to the value sent and keeps every other field at its stored value, so id, created_at and updated_at are never taken from the data |
| CatalogSerializers.ValidatedCreateComplete | ecommerce_api/catalog/serializers.py:22-25 | data that passed validation on create holds name, price, stock_qty and category |
| CatalogSerializers.CreatedRowAsRequested | ecommerce_api/catalog/models.py:10-19 | the created row has a fresh id, the clock's timestamps, the sent values (text stripped), and the model defaults for absent description, image_url and is_active |
| CatalogSerializers.CreateProduct | ecommerce_api/catalog/serializers.py:20-28 | create succeeds exactly when the framework's checks for a full write and validate both pass; the framework's errors come first, then validate's; on success one row is appended with a fresh id, the clock's timestamps, the sent values and defaults, and the store stays valid |
| CatalogSerializers.NegativeStockRejected | ecommerce_api/catalog/models.py:15 | a negative stock_qty is refused under "stock_qty", so stock is never negative |
| CatalogSerializers.BlankNameRejected | ecommerce_api/catalog/models.py:11 | an empty or whitespace-only product name is refused under "name" before validate runs |
| CatalogSerializers.NullCharRejected | ecommerce_api/catalog/models.py:11-12 | a product name or description holding a NUL anywhere is refused under that key before validate runs |
| CatalogSerializers.CreateRequiresModelFields | ecommerce_api/catalog/models.py:11-14 | on create, a missing name, price or category is refused under that key by the framework, before validate runs |
| CatalogSerializers.CreateMissingStockReportedByValidate | ecommerce_api/catalog/serializers.py:22-25 | once the framework's checks pass on create, a missing stock_qty is reported by validate's own "This field is required." under "stock_qty" |
| CatalogSerializers.FindProduct | ecommerce_api/catalog/views.py:22-23 | finds the position of a product with the given id exactly when one exists |
| CatalogSerializers.UpdateProduct | ecommerce_api/catalog/serializers.py:20-28 | an unknown id is not found; otherwise update succeeds exactly when the framework's checks pass (a full update needs name, price and category, a partial one nothing) and no negative price is sent; once those checks pass, the only refusal is the "price" error for a negative price; on success only the row with that id changes: every key of the data takes the value sent, every other field (id and created_at included) keeps its stored value, and updated_at becomes now |
| CatalogSerializers.FullUpdateRequiresModelFields | ecommerce_api/catalog/models.py:11-14 | a full update that omits name, price or category is refused under that key |
| CatalogSerializers.EmptyPartialUpdateTouchesOnly | ecommerce_api/catalog/serializers.py:20-28 | a partial update with an empty body succeeds and changes only that row's updated_at |
| CatalogSerializers.NothingSuppliedOnlyStamps | ecommerce_api/catalog/serializers.py:11-18 | an update whose data holds no key leaves the row as stored apart from updated_at |
| CatalogSerializers.CreateKeepsPricesNonNegative | ecommerce_api/catalog/serializers.py:26-27 | a store whose prices are all at least zero keeps that property through every successful create |
| CatalogSerializers.UpdateKeepsPricesNonNegative | ecommerce_api/catalog/serializers.py:26-27 | a store whose prices are all at least zero keeps that property through every successful full or partial update |
| CatalogSerializers.Represent | ecommerce_api/catalog/serializers.py:12 | a response carries the stored fields plus category_name, which equals the name of the linked category |
| CatalogViews.IExactIsWholeString | ecommerce_api/catalog/views.py:10 | iexact equality implies equal length and equal letters up to case, so it is not a substring match |
| CatalogViews.IExactExamples | ecommerce_api/catalog/views.py:10 | "Books" and "BOOKS" match "books"; "book" does not |
| CatalogViews.AllHoldAppend | ecommerce_api/catalog/views.py:8-20 | a list of filters accepts a row exactly when both of its halves do |
| CatalogViews.AllHoldSingle | ecommerce_api/catalog/views.py:8-20 | a single filter accepts exactly the rows its predicate holds for |
| CatalogViews.CriteriaMeanMatches | ecommerce_api/catalog/views.py:8-20 | the filters a query runs accept a product exactly when it meets every given parameter |
| CatalogViews.PriceCriteriaMeaning | ecommerce_api/catalog/views.py:11-12 | the min_price and max_price filters accept exactly the products inside the inclusive bounds |
| CatalogViews.Keep | ecommerce_api/catalog/views.py:8-20 | one filter keeps exactly the rows it holds for, as a subsequence of its input |
| CatalogViews.KeepAll | ecommerce_api/catalog/views.py:8-20 | a single pass keeps exactly the rows all filters accept, as a subsequence |
| CatalogViews.KeepAllAfterKeep | ecommerce_api/catalog/views.py:8-20 | running one filter and then the rest gives the same result as one pass over all of them |
| CatalogViews.ApplyFiltersIsKeepAll | ecommerce_api/catalog/views.py:8-20 | applying the filters one after another equals keeping the rows that pass them all |
| CatalogViews.KeepAllTrivial | ecommerce_api/catalog/views.py:8-20 | when every row passes, the listing is returned unchanged |
| CatalogViews.FilterProducts | ecommerce_api/catalog/views.py:8-20 | the filtered listing is a subsequence of the input and holds exactly the products meeting every given parameter, so nothing is added, duplicated or reordered |
| CatalogViews.NoFiltersKeepAll | ecommerce_api/catalog/views.py:8-20 | with no parameters the listing is unchanged |
| CatalogViews.InStockFalseIsNoFilter | ecommerce_api/catalog/views.py:15-16 | in_stock=false returns the listing unchanged, not the out-of-stock products |
| CatalogViews.InStockTrueKeepsStocked | ecommerce_api/catalog/views.py:13-16 | in_stock=true keeps exactly the products with stock_qty > 0 |
| CatalogViews.CategoryFilterExact | ecommerce_api/catalog/views.py:9 | category keeps exactly the products whose category id equals the value |
| CatalogViews.SlugFilterCaseInsensitive | ecommerce_api/catalog/views.py:10 | a category_slug that is not all whitespace keeps exactly the products whose category slug equals the stripped value up to letter case |
| CatalogViews.PaddedSlugFiltersAsStripped | ecommerce_api/catalog/views.py:10 | with any other parameters, a category_slug padded with whitespace filters exactly like the stripped value |
| CatalogViews.EmptySlugIsNoFilter | ecommerce_api/catalog/views.py:10 | an empty or whitespace-only category_slug does not filter |
| CatalogViews.PriceRangeInclusive | ecommerce_api/catalog/views.py:11-12 | min_price and max_price together keep exactly the products with min ≤ price ≤ max, ends included |
| CatalogViews.FilterIdempotent | ecommerce_api/catalog/views.py:8-20 | filtering a filtered listing with the same query changes nothing |
| CatalogViews.ListProducts | ecommerce_api/catalog/views.py:22-27 | the product listing holds exactly the store's products matching the query, each at most as often as stored, ordered newest first |
| CatalogViews.LookupField | ecommerce_api/catalog/views.py:29 | a name resolves to a whitelisted field with that API name, and fails exactly when no whitelisted field has it |
| CatalogViews.ParseTerm | ecommerce_api/catalog/views.py:29 | a term is accepted exactly when it is a whitelisted field name (ascending) or that name after one '-' (descending), and it is parsed as that field and direction |
| CatalogViews.WhitelistedTermAccepted | ecommerce_api/catalog/views.py:29 | every whitelisted field is accepted under its own name ascending and after '-' descending |
| CatalogViews.AcceptedTerms | ecommerce_api/catalog/views.py:29 | every accepted term is kept, nothing else is, and none survives exactly when every term is rejected |
| CatalogViews.AcceptedTermsSingle | ecommerce_api/catalog/views.py:29 | one term contributes its parse, or nothing when it is rejected |
| CatalogViews.AcceptedTermsAppend | ecommerce_api/catalog/views.py:29 | filtering terms commutes with concatenation, so the accepted terms keep the client's order |
| CatalogViews.Ordering | ecommerce_api/catalog/views.py:29 | with no accepted term the view's default applies; otherwise exactly the accepted terms are used, each on a whitelisted field |
| CatalogViews.OrderedFieldAllowed | ecommerce_api/catalog/views.py:29 | every term of the ordering in use names a whitelisted field or comes from the view's default |
| CatalogViews.WhitelistedFieldHonoured | ecommerce_api/catalog/views.py:29 | a whitelisted field the client names is sorted on, in the direction asked |
| CatalogViews.ProductOrderingWhitelist | ecommerce_api/catalog/views.py:29 | products sort only on created_at, price, name or stock_qty |
| CatalogViews.ProductOrderingIgnoresOtherFields | ecommerce_api/catalog/views.py:29 | ordering=description is ignored and the listing stays newest first |
| CatalogViews.ProductOrderingExample | ecommerce_api/catalog/views.py:29 | ordering=-price,name gives price descending, then name ascending |
| CatalogViews.CategoryOrderingWhitelist | ecommerce_api/catalog/views.py:37 | categories sort only on name or created_at |
| CatalogViews.CategoryOrderingIgnoresPrice | ecommerce_api/catalog/views.py:32-37 | ordering categories by price is ignored and the default order by name stays |

## Left out

- The accounts app is not modelled: registration, the profile endpoint and admin user management. It consists of framework calls (password hashing, authentication, `IsAdminUser`) and a one-line minimum password length option.
- `IsAuthenticatedToManage` is not modelled. It is imported from `catalog/permissions.py`, which is not part of this model.
- HTTP routing, status codes and the ViewSet's dispatch of CRUD actions are not modelled. Errors are returned as `Result` values instead.
- Search is not modelled beyond recording the searched fields (`ProductSearchFields`, `CategorySearchFields`). The framework's substring matching, case folding and tokenisation are not modelled.
- Applying a client-chosen ordering is not modelled: the multi-key comparison is done by the database under its collation. Only which terms are accepted is modelled, plus the default newest-first product order. Splitting the `ordering` parameter on commas and stripping spaces is also left out; `Ordering` takes the list of terms.
- The category listing's default `order_by("name")` is recorded as the default ordering term but not applied, because string order depends on the database collation.
- Updating a category is not modelled. It would repeat `AddCategory`'s blank, length and uniqueness checks against the other rows.
- Query-string parsing is not modelled: decimals for the prices and booleans for the flags. Queries arrive parsed, with prices in whole cents, so a bound with more than two decimal places cannot be expressed.
- `CatalogViews.FilterProducts`: a query the filter form refuses is not modelled. An unparsable number, or a `category_slug` holding a NUL, makes the framework answer the whole request with an error. The model has no error result for a listing and filters with the value as given.
- `CatalogSerializers.CreatedRowAsRequested`: request bodies are JSON objects, so an absent is_active takes the model default true. A form or multipart body that leaves out is_active is read as false instead, on create and on a full update, because an HTML checkbox that is not ticked sends nothing. JSON `null` is not modelled either.
- `CatalogViews.IExactIsWholeString`: case folding covers ASCII letters only. Databases that fold Unicode (for example `UPPER` on PostgreSQL) can also match a few non-ASCII query characters against an ASCII slug.
- `Text.Trim`: only ASCII whitespace is stripped. Python's `str.strip` also strips Unicode whitespace such as U+00A0 and U+2003, so a value padded with those is read differently here.
- `CatalogSerializers.FieldErrors`: the error messages of the framework's checks are not modelled, only the keys they are reported under.
- `CatalogSerializers.FieldErrors`: the database-dependent upper bound of `PositiveIntegerField` and the URL-format validation of `image_url` are not modelled. They are framework validators; only the 200-character limit of `image_url` is.
- `CatalogSerializers.FieldErrors`: a request-body price arrives as whole cents. A price with more than two decimal places, which the framework's `DecimalField` refuses under "price", cannot be expressed.
- `CatalogModels.CategoryFieldErrors`: the slug-character validation of `SlugField` (letters, digits, `-` and `_` only) is not modelled. It is a framework validator.
- Persistence, `select_related`, database indexes and timestamp generation are not modelled. The clock is the `now` parameter.

=== FILE: catalog_models.dfy ===
/**
  The catalog's persisted records (ecommerce_api/catalog/models.py) as an
  immutable store: categories with unique names and slugs, products that each
  reference one existing category through a protected foreign key, prices as
  fixed-point decimals held in integer cents, and the default newest-first
  listing order. Identifiers and timestamps are handed out by the database;
  here the store carries the next free identifiers and callers pass the
  current time as an integer.
*/
module CatalogModels {
  import opened Wrappers
  import opened Subsequences
  import opened Text

  /** `Category.name`: CharField(max_length=120, unique=True). */
  const CategoryNameMaxLength: nat := 120
  /** `Category.slug`: SlugField(max_length=140, unique=True). */
  const SlugMaxLength: nat := 140
  /** `Product.name`: CharField(max_length=200). */
  const ProductNameMaxLength: nat := 200
  /** `Product.image_url`: URLField(blank=True), whose max_length defaults to 200. */
  const ImageUrlMaxLength: nat := 200
  /** `Product.price`: DecimalField(max_digits=12, decimal_places=2). */
  const PriceMaxDigits: nat := 12
  const PriceDecimalPlaces: nat := 2

  /**
    Every text field of the framework's serializers refuses a value that
    holds the NUL character, whatever the field's other options.
  */
  predicate HasNullChar(s: string) {
    '\0' in s
  }

  function Pow10(n: nat): nat {
    if n == 0 then 1 else 10 * Pow10(n - 1)
  }

  /** Cent counts must stay below this in magnitude; `PriceBound` ties it to the declared digits. */
  const PriceLimit: nat := 1_000_000_000_000

  /**
    A price with two decimal places is an integer number of cents; at most 12
    digits in total means the cent count has at most 12 digits.
  */
  predicate PriceFits(cents: int) {
    -(PriceLimit as int) < cents < PriceLimit
  }

  lemma PriceBound()
    ensures PriceLimit == Pow10(PriceMaxDigits)
    ensures PriceFits(9_999_999_999_99) && PriceFits(-9_999_999_999_99)
    ensures !PriceFits(10_000_000_000_00)
  {
    assert Pow10(12) == 1_000_000_000_000 by {
      assert Pow10(6) == 1_000_000;
    }
  }

  /** The API names of the record fields, as the serializers and error responses spell them. */
  datatype Field =
    | Id | Name | Slug | Description | Price | CategoryId | CategoryName
    | StockQty | ImageUrl | IsActive | CreatedAt | UpdatedAt
  {
    function Key(): string {
      match this
      case Id => "id"
      case Name => "name"
      case Slug => "slug"
      case Description => "description"
      case Price => "price"
      case CategoryId => "category"
      case CategoryName => "category_name"
      case StockQty => "stock_qty"
      case ImageUrl => "image_url"
      case IsActive => "is_active"
      case CreatedAt => "created_at"
      case UpdatedAt => "updated_at"
    }
  }

  /** Every field name, in declaration order: categories' first, then products'. */
  const AllFields: seq<Field> :=
    [Id, Name, Slug, CreatedAt, Description, Price, CategoryId, CategoryName,
     StockQty, ImageUrl, IsActive, UpdatedAt]

  lemma AllFieldsListed(f: Field)
    ensures f in AllFields
  {
    match f
    case Id => assert AllFields[0] == f;
    case Name => assert AllFields[1] == f;
    case Slug => assert AllFields[2] == f;
    case CreatedAt => assert AllFields[3] == f;
    case Description => assert AllFields[4] == f;
    case Price => assert AllFields[5] == f;
    case CategoryId => assert AllFields[6] == f;
    case CategoryName => assert AllFields[7] == f;
    case StockQty => assert AllFields[8] == f;
    case ImageUrl => assert AllFields[9] == f;
    case IsActive => assert AllFields[10] == f;
    case UpdatedAt => assert AllFields[11] == f;
  }

  datatype Category = Category(id: nat, name: string, slug: string, createdAt: int)

  /** `stock_qty` is a PositiveIntegerField, so it is a `nat` here. */
  datatype Product = Product(
    id: nat,
    name: string,
    description: string,
    priceCents: int,
    category: nat,
    stockQty: nat,
    imageUrl: string,
    isActive: bool,
    createdAt: int,
    updatedAt: int)

  /**
    A new product as the model constructs it: only the fields without a model
    default are supplied; `description` and `image_url` are blank-allowed text
    defaulting to "", `stock_qty` defaults to 0 and `is_active` to true.
  */
  function NewProduct(id: nat, name: string, priceCents: int, category: nat, now: int): Product
  {
    Product(id, name, "", priceCents, category, 0, "", true, now, now)
  }

  /** The two tables plus the identifiers the database would hand out next. */
  datatype Store = Store(
    categories: seq<Category>,
    products: seq<Product>,
    nextCategoryId: nat,
    nextProductId: nat)

  function EmptyStore(): (s: Store)
    ensures Valid(s)
    ensures s.categories == [] && s.products == []
  {
    Store([], [], 1, 1)
  }

  predicate HasCategoryId(cats: seq<Category>, id: int) {
    exists i :: 0 <= i < |cats| && cats[i].id == id
  }

  predicate HasCategoryName(cats: seq<Category>, name: string) {
    exists i :: 0 <= i < |cats| && cats[i].name == name
  }

  predicate HasCategorySlug(cats: seq<Category>, slug: string) {
    exists i :: 0 <= i < |cats| && cats[i].slug == slug
  }

  /** The category with the given id, if the table has one. */
  function FindCategory(cats: seq<Category>, id: int): (r: Option<Category>)
    ensures r.None? <==> !HasCategoryId(cats, id)
    ensures r.Some? ==> r.value in cats && r.value.id == id
  {
    if |cats| == 0 then None
    else if cats[0].id == id then Some(cats[0])
    else
      var r := FindCategory(cats[1..], id);
      assert HasCategoryId(cats, id) <==> cats[0].id == id || HasCategoryId(cats[1..], id) by {
        if HasCategoryId(cats, id) && cats[0].id != id {
          var i :| 0 <= i < |cats| && cats[i].id == id;
          assert cats[1..][i - 1].id == id;
        }
        if HasCategoryId(cats[1..], id) {
          var i :| 0 <= i < |cats[1..]| && cats[1..][i].id == id;
          assert cats[i + 1].id == id;
        }
      }
      r
  }

  /** Ids, names and slugs of the category table are pairwise distinct. */
  predicate CategoriesUnique(cats: seq<Category>) {
    forall i, j :: 0 <= i < j < |cats| ==>
      cats[i].id != cats[j].id && cats[i].name != cats[j].name && cats[i].slug != cats[j].slug
  }

  predicate ProductIdsUnique(ps: seq<Product>) {
    forall i, j :: 0 <= i < j < |ps| ==> ps[i].id != ps[j].id
  }

  /** Name and slug are declared without `blank=True`, so neither is ever empty. */
  predicate CategoryWellFormed(s: Store, c: Category) {
    && c.id < s.nextCategoryId
    && 0 < |c.name| <= CategoryNameMaxLength
    && 0 < |c.slug| <= SlugMaxLength
  }

  /** A product row whose name is non-blank and fits, whose price and image URL fit, and whose category exists. */
  predicate ProductFits(cats: seq<Category>, p: Product) {
    && 0 < |p.name| <= ProductNameMaxLength
    && PriceFits(p.priceCents)
    && |p.imageUrl| <= ImageUrlMaxLength
    && HasCategoryId(cats, p.category)
  }

  predicate ProductWellFormed(s: Store, p: Product) {
    p.id < s.nextProductId && ProductFits(s.categories, p)
  }

  /**
    The database invariants: unique category names and slugs, non-blank names
    and slugs, field lengths and price digits within their declared limits,
    and every product's foreign key pointing at an existing category.
  */
  predicate Valid(s: Store) {
    && CategoriesUnique(s.categories)
    && ProductIdsUnique(s.products)
    && (forall i :: 0 <= i < |s.categories| ==> CategoryWellFormed(s, s.categories[i]))
    && (forall i :: 0 <= i < |s.products| ==> ProductWellFormed(s, s.products[i]))
  }

  /** Why adding a category was refused: the fields whose value is blank, too long, holds a NUL or is already taken. */
  datatype CategoryError = CategoryInvalid(fields: set<Field>)

  /**
    The fields of a new category the framework refuses. Each value is read
    with its surrounding whitespace stripped; it is then refused when it is
    blank (neither field allows blank), longer than its column, holds a NUL
    character, or equals a stored value (the uniqueness check sees the
    stripped value).
  */
  function CategoryFieldErrors(cats: seq<Category>, name: string, slug: string): (bad: set<Field>)
    ensures Name in bad <==>
      || AllSpace(name) || |Trim(name)| > CategoryNameMaxLength || HasNullChar(Trim(name))
      || HasCategoryName(cats, Trim(name))
    ensures Slug in bad <==>
      || AllSpace(slug) || |Trim(slug)| > SlugMaxLength || HasNullChar(Trim(slug))
      || HasCategorySlug(cats, Trim(slug))
    ensures bad <= {Name, Slug}
  {
    var n := Trim(name);
    var g := Trim(slug);
    (if n == "" || |n| > CategoryNameMaxLength || HasNullChar(n) || HasCategoryName(cats, n) then {Name} else {})
    + (if g == "" || |g| > SlugMaxLength || HasNullChar(g) || HasCategorySlug(cats, g) then {Slug} else {})
  }

  /**
    Inserting a category. The id and creation time come from the store and the
    clock, never from the caller; name and slug are stored stripped of
    surrounding whitespace; a blank value, one holding a NUL, or one equal to
    a stored one, is refused, so both stay non-blank and unique.
  */
  function AddCategory(s: Store, name: string, slug: string, now: int): (r: Result<Store, CategoryError>)
    requires Valid(s)
    ensures r.Failure? <==>
      || AllSpace(name) || |Trim(name)| > CategoryNameMaxLength || HasNullChar(Trim(name))
      || HasCategoryName(s.categories, Trim(name))
      || AllSpace(slug) || |Trim(slug)| > SlugMaxLength || HasNullChar(Trim(slug))
      || HasCategorySlug(s.categories, Trim(slug))
    ensures r.Failure? ==> r.error.fields == CategoryFieldErrors(s.categories, name, slug) && r.error.fields != {}
    ensures r.Success? ==>
      && Valid(r.value)
      && r.value.categories == s.categories + [Category(s.nextCategoryId, Trim(name), Trim(slug), now)]
      && r.value.products == s.products
      && !HasCategoryId(s.categories, s.nextCategoryId)
  {
    var bad := CategoryFieldErrors(s.categories, name, slug);
    if bad != {} then
      assert Name in bad || Slug in bad;
      Failure(CategoryInvalid(bad))
    else
      Success(InsertCategory(s, Category(s.nextCategoryId, Trim(name), Trim(slug), now)))
  }

  /** Appending a category that passed the field checks, under the store's next id. */
  function InsertCategory(s: Store, c: Category): (r: Store)
    requires Valid(s)
    requires c.id == s.nextCategoryId
    requires 0 < |c.name| <= CategoryNameMaxLength && !HasCategoryName(s.categories, c.name)
    requires 0 < |c.slug| <= SlugMaxLength && !HasCategorySlug(s.categories, c.slug)
    ensures Valid(r) && r.categories == s.categories + [c] && r.products == s.products
    ensures !HasCategoryId(s.categories, c.id)
  {
    var s' := s.(categories := s.categories + [c], nextCategoryId := s.nextCategoryId + 1);
    assert forall i :: 0 <= i < |s.categories| ==> s.categories[i].id < s.nextCategoryId by {
      forall i | 0 <= i < |s.categories| ensures s.categories[i].id < s.nextCategoryId {
        assert CategoryWellFormed(s, s.categories[i]);
      }
    }
    assert CategoriesUnique(s'.categories) by {
      forall i, j | 0 <= i < j < |s'.categories|
        ensures s'.categories[i].id != s'.categories[j].id
        ensures s'.categories[i].name != s'.categories[j].name
        ensures s'.categories[i].slug != s'.categories[j].slug
      {
        if j == |s.categories| {
          assert s'.categories[i] == s.categories[i];
          assert CategoryWellFormed(s, s.categories[i]);
        }
      }
    }
    assert forall i :: 0 <= i < |s'.products| ==> ProductWellFormed(s', s'.products[i]) by {
      forall i | 0 <= i < |s'.products|
        ensures ProductWellFormed(s', s'.products[i])
      {
        assert ProductWellFormed(s, s.products[i]);
        var k :| 0 <= k < |s.categories| && s.categories[k].id == s.products[i].category;
        assert s'.categories[k] == s.categories[k];
      }
    }
    s'
  }

  /** A blank name or slug, whitespace only included, is refused under its own key. */
  lemma BlankCategoryRejected(s: Store, name: string, slug: string, now: int)
    requires Valid(s)
    requires AllSpace(name) || AllSpace(slug)
    ensures AddCategory(s, name, slug, now).Failure?
    ensures AllSpace(name) ==> Name in AddCategory(s, name, slug, now).error.fields
    ensures AllSpace(slug) ==> Slug in AddCategory(s, name, slug, now).error.fields
  {
  }

  /** A name or slug holding a NUL character, wherever it sits, is refused under its own key. */
  lemma NullCharCategoryRejected(s: Store, name: string, slug: string, now: int)
    requires Valid(s)
    requires HasNullChar(name) || HasNullChar(slug)
    ensures AddCategory(s, name, slug, now).Failure?
    ensures HasNullChar(name) ==> Name in AddCategory(s, name, slug, now).error.fields
    ensures HasNullChar(slug) ==> Slug in AddCategory(s, name, slug, now).error.fields
  {
    TrimKeepsNonSpace(name, '\0');
    TrimKeepsNonSpace(slug, '\0');
  }

  /**
    Whitespace in front of a name changes nothing: `" Books"` is stored, or
    refused as a duplicate, exactly as `"Books"` is.
  */
  lemma PaddedNameActsAsTrimmed(s: Store, c: char, name: string, slug: string, now: int)
    requires Valid(s)
    requires IsSpace(c)
    ensures AddCategory(s, [c] + name, slug, now) == AddCategory(s, name, slug, now)
  {
    TrimIgnoresLeadingSpace(c, name);
  }

  /** Inserting a product row under the next free id. */
  function AddProduct(s: Store, p: Product): (r: Store)
    requires Valid(s)
    requires p.id == s.nextProductId && ProductFits(s.categories, p)
    ensures Valid(r)
    ensures r.categories == s.categories && r.products == s.products + [p]
    ensures forall i :: 0 <= i < |s.products| ==> s.products[i].id != p.id
  {
    var r := s.(products := s.products + [p], nextProductId := s.nextProductId + 1);
    assert forall i :: 0 <= i < |s.products| ==> s.products[i].id < p.id by {
      forall i | 0 <= i < |s.products| ensures s.products[i].id < p.id {
        assert ProductWellFormed(s, s.products[i]);
      }
    }
    assert forall i :: 0 <= i < |r.products| ==> ProductWellFormed(r, r.products[i]) by {
      forall i | 0 <= i < |r.products| ensures ProductWellFormed(r, r.products[i]) {
        if i < |s.products| {
          assert ProductWellFormed(s, s.products[i]);
        }
      }
    }
    r
  }

  /** Overwriting the product row at position `k` with a row of the same id. */
  function ReplaceProduct(s: Store, k: nat, p: Product): (r: Store)
    requires Valid(s)
    requires k < |s.products| && p.id == s.products[k].id && ProductFits(s.categories, p)
    ensures Valid(r)
    ensures r.categories == s.categories && r.products == s.products[k := p]
  {
    var r := s.(products := s.products[k := p]);
    assert ProductWellFormed(s, s.products[k]);
    assert ProductIdsUnique(r.products) by {
      forall i, j | 0 <= i < j < |r.products| ensures r.products[i].id != r.products[j].id {
        assert r.products[i].id == s.products[i].id && r.products[j].id == s.products[j].id;
      }
    }
    assert forall i :: 0 <= i < |r.products| ==> ProductWellFormed(r, r.products[i]) by {
      forall i | 0 <= i < |r.products| ensures ProductWellFormed(r, r.products[i]) {
        assert ProductWellFormed(s, s.products[i]);
      }
    }
    r
  }

  /**
    The ids of the products whose foreign key points at the given category:
    all of them, and no others.
  */
  function ReferencingProducts(ps: seq<Product>, categoryId: nat): (r: seq<nat>)
    ensures |r| == 0 <==> forall i :: 0 <= i < |ps| ==> ps[i].category != categoryId
    ensures forall id :: id in r ==> exists i :: 0 <= i < |ps| && ps[i].id == id && ps[i].category == categoryId
    ensures forall i :: 0 <= i < |ps| && ps[i].category == categoryId ==> ps[i].id in r
    ensures |r| <= |ps|
  {
    if |ps| == 0 then []
    else
      var rest := ReferencingProducts(ps[1..], categoryId);
      assert forall id :: id in rest ==> exists i :: 0 <= i < |ps| && ps[i].id == id && ps[i].category == categoryId by {
        forall id | id in rest
          ensures exists i :: 0 <= i < |ps| && ps[i].id == id && ps[i].category == categoryId
        {
          var i :| 0 <= i < |ps[1..]| && ps[1..][i].id == id && ps[1..][i].category == categoryId;
          assert ps[i + 1] == ps[1..][i];
        }
      }
      assert forall i :: 1 <= i < |ps| ==> ps[i] == ps[1..][i - 1];
      if ps[0].category == categoryId then [ps[0].id] + rest else rest
  }

  /** Why deleting a record was refused. */
  datatype DeleteError =
    | NotFound
      /** `on_delete=PROTECT`: the category is still referenced by these products. */
    | Protected(productIds: seq<nat>)

  /** The table without the category of the given id. */
  function RemoveCategory(cats: seq<Category>, id: nat): (r: seq<Category>)
    ensures forall c :: c in r <==> c in cats && c.id != id
    ensures IsSubsequence(r, cats)
  {
    if |cats| == 0 then []
    else
      var rest := RemoveCategory(cats[1..], id);
      assert forall c :: c in cats <==> c == cats[0] || c in cats[1..];
      if cats[0].id == id then
        SubsequenceSkip(cats[0], rest, cats[1..]);
        assert [cats[0]] + cats[1..] == cats;
        rest
      else
        SubsequenceCons(cats[0], rest, cats[1..]);
        assert [cats[0]] + cats[1..] == cats;
        [cats[0]] + rest
  }

  /**
    Deleting a category. While any product still references it the delete is
    refused and the store is left as it was; otherwise exactly that category
    disappears and every product and every other category is untouched.
  */
  function DeleteCategory(s: Store, id: nat): (r: Result<Store, DeleteError>)
    requires Valid(s)
    ensures !HasCategoryId(s.categories, id) ==> r == Failure(NotFound)
    ensures HasCategoryId(s.categories, id) && (exists i :: 0 <= i < |s.products| && s.products[i].category == id)
      ==> r.Failure? && r.error.Protected? && |r.error.productIds| > 0
    ensures r.Failure? && r.error.Protected? ==>
      forall pid :: pid in r.error.productIds <==>
        exists i :: 0 <= i < |s.products| && s.products[i].id == pid && s.products[i].category == id
    ensures r.Success? <==>
      HasCategoryId(s.categories, id) && forall i :: 0 <= i < |s.products| ==> s.products[i].category != id
    ensures r.Success? ==>
      && Valid(r.value)
      && r.value.products == s.products
      && !HasCategoryId(r.value.categories, id)
      && (forall c :: c in r.value.categories <==> c in s.categories && c.id != id)
      && IsSubsequence(r.value.categories, s.categories)
  {
    if !HasCategoryId(s.categories, id) then Failure(NotFound)
    else
      var refs := ReferencingProducts(s.products, id);
      if |refs| > 0 then Failure(Protected(refs))
      else
        var s' := s.(categories := RemoveCategory(s.categories, id));
        RemoveCategoryValid(s, id);
        Success(s')
  }

  lemma RemoveCategoryValid(s: Store, id: nat)
    requires Valid(s)
    requires forall i :: 0 <= i < |s.products| ==> s.products[i].category != id
    ensures Valid(s.(categories := RemoveCategory(s.categories, id)))
    ensures !HasCategoryId(RemoveCategory(s.categories, id), id)
  {
    var cats := RemoveCategory(s.categories, id);
    var s' := s.(categories := cats);
    SubsequenceCategoriesUnique(cats, s.categories);
    forall i | 0 <= i < |cats| ensures CategoryWellFormed(s', cats[i]) && cats[i].id != id {
      assert cats[i] in cats;
      var k :| 0 <= k < |s.categories| && s.categories[k] == cats[i];
      assert CategoryWellFormed(s, s.categories[k]);
    }
    forall i | 0 <= i < |s.products| ensures ProductWellFormed(s', s.products[i]) {
      assert ProductWellFormed(s, s.products[i]);
      var k :| 0 <= k < |s.categories| && s.categories[k].id == s.products[i].category;
      assert s.categories[k] in cats;
      var m :| 0 <= m < |cats| && cats[m] == s.categories[k];
    }
  }

  /** Dropping rows from a table whose ids, names and slugs are unique keeps them unique. */
  lemma {:induction false} SubsequenceCategoriesUnique(a: seq<Category>, b: seq<Category>)
    requires IsSubsequence(a, b)
    requires CategoriesUnique(b)
    ensures CategoriesUnique(a)
    decreases |b|
  {
    if |a| == 0 {
    } else {
      assert CategoriesUnique(b[1..]) by {
        forall i, j | 0 <= i < j < |b[1..]|
          ensures b[1..][i].id != b[1..][j].id && b[1..][i].name != b[1..][j].name && b[1..][i].slug != b[1..][j].slug
        {
          assert b[1..][i] == b[i + 1] && b[1..][j] == b[j + 1];
        }
      }
      if a[0] == b[0] {
        SubsequenceCategoriesUnique(a[1..], b[1..]);
        SubsequenceMembers(a[1..], b[1..]);
        forall i, j | 0 <= i < j < |a|
          ensures a[i].id != a[j].id && a[i].name != a[j].name && a[i].slug != a[j].slug
        {
          assert a[j] == a[1..][j - 1];
          if i == 0 {
            assert a[j] in b[1..];
            var m :| 0 <= m < |b[1..]| && b[1..][m] == a[j];
            assert b[m + 1] == a[j];
          } else {
            assert a[i] == a[1..][i - 1];
          }
        }
      } else {
        SubsequenceCategoriesUnique(a, b[1..]);
      }
    }
  }

  /** The table without the product of the given id. */
  function RemoveProduct(ps: seq<Product>, id: nat): (r: seq<Product>)
    ensures forall p :: p in r <==> p in ps && p.id != id
    ensures IsSubsequence(r, ps)
  {
    if |ps| == 0 then []
    else
      var rest := RemoveProduct(ps[1..], id);
      assert forall p :: p in ps <==> p == ps[0] || p in ps[1..];
      assert [ps[0]] + ps[1..] == ps;
      if ps[0].id == id then
        SubsequenceSkip(ps[0], rest, ps[1..]);
        rest
      else
        SubsequenceCons(ps[0], rest, ps[1..]);
        [ps[0]] + rest
  }

  /** Dropping rows from a product table with unique ids keeps the ids unique. */
  lemma {:induction false} SubsequenceProductIdsUnique(a: seq<Product>, b: seq<Product>)
    requires IsSubsequence(a, b)
    requires ProductIdsUnique(b)
    ensures ProductIdsUnique(a)
    decreases |b|
  {
    if |a| == 0 {
    } else {
      assert ProductIdsUnique(b[1..]) by {
        forall i, j | 0 <= i < j < |b[1..]| ensures b[1..][i].id != b[1..][j].id {
          assert b[1..][i] == b[i + 1] && b[1..][j] == b[j + 1];
        }
      }
      if a[0] == b[0] {
        SubsequenceProductIdsUnique(a[1..], b[1..]);
        SubsequenceMembers(a[1..], b[1..]);
        forall i, j | 0 <= i < j < |a| ensures a[i].id != a[j].id {
          assert a[j] == a[1..][j - 1];
          if i == 0 {
            assert a[j] in b[1..];
            var m :| 0 <= m < |b[1..]| && b[1..][m] == a[j];
            assert b[m + 1] == a[j];
          } else {
            assert a[i] == a[1..][i - 1];
          }
        }
      } else {
        SubsequenceProductIdsUnique(a, b[1..]);
      }
    }
  }

  /** Deleting a product: a plain row removal (nothing is protected by a product). */
  function DeleteProduct(s: Store, id: nat): (r: Result<Store, DeleteError>)
    requires Valid(s)
    ensures r.Failure? <==> forall i :: 0 <= i < |s.products| ==> s.products[i].id != id
    ensures r.Failure? ==> r.error == NotFound
    ensures r.Success? ==>
      && Valid(r.value)
      && r.value.categories == s.categories
      && (forall p :: p in r.value.products <==> p in s.products && p.id != id)
      && IsSubsequence(r.value.products, s.products)
  {
    if forall i :: 0 <= i < |s.products| ==> s.products[i].id != id then Failure(NotFound)
    else
      var ps := RemoveProduct(s.products, id);
      SubsequenceProductIdsUnique(ps, s.products);
      assert forall i :: 0 <= i < |ps| ==> ps[i] in s.products;
      Success(s.(products := ps))
  }

  /** Products are listed by `-created_at`: newest first. */
  predicate NewestFirst(ps: seq<Product>) {
    forall i, j :: 0 <= i < j < |ps| ==> ps[i].createdAt >= ps[j].createdAt
  }

  /**
    Inserting one product into a newest-first listing: it goes before the first
    row that is not newer, so the result is the listing plus `p`, still newest
    first, headed by `p` or by the old head.
  */
  function InsertByAge(p: Product, ps: seq<Product>): (r: seq<Product>)
    requires NewestFirst(ps)
    ensures NewestFirst(r)
    ensures multiset(r) == multiset(ps) + multiset{p}
    ensures |r| == |ps| + 1
    ensures forall q :: q in r <==> q == p || q in ps
    ensures r[0] == p || (|ps| > 0 && r[0] == ps[0])
  {
    if |ps| == 0 || p.createdAt >= ps[0].createdAt then [p] + ps
    else
      var rest := InsertByAge(p, ps[1..]);
      InsertedBehindHead(p, ps, rest);
      [ps[0]] + rest
  }

  /** An older row inserted into the tail of a newest-first listing leaves the head in front. */
  lemma InsertedBehindHead(p: Product, ps: seq<Product>, rest: seq<Product>)
    requires |ps| > 0 && NewestFirst(ps) && p.createdAt < ps[0].createdAt
    requires NewestFirst(rest) && multiset(rest) == multiset(ps[1..]) + multiset{p}
    requires forall q :: q in rest <==> q == p || q in ps[1..]
    requires rest[0] == p || (|ps| > 1 && rest[0] == ps[1..][0])
    ensures NewestFirst([ps[0]] + rest)
    ensures multiset([ps[0]] + rest) == multiset(ps) + multiset{p}
    ensures forall q :: q in [ps[0]] + rest <==> q == p || q in ps
  {
    assert ps == [ps[0]] + ps[1..];
    NewerHeadKeepsOrder(ps[0], rest);
  }

  /** A row no older than the head of a newest-first listing can go in front of it. */
  lemma NewerHeadKeepsOrder(h: Product, rest: seq<Product>)
    requires NewestFirst(rest) && (|rest| > 0 ==> h.createdAt >= rest[0].createdAt)
    ensures NewestFirst([h] + rest)
  {
    var r := [h] + rest;
    forall i, j | 0 <= i < j < |r| ensures r[i].createdAt >= r[j].createdAt {
      if i == 0 {
        assert r[j] == rest[j - 1];
      } else {
        assert r[i] == rest[i - 1] && r[j] == rest[j - 1];
      }
    }
  }

  /**
    The default listing order of the product table: a permutation of the table
    with the newest product first. Rows with equal timestamps have no order the
    database promises; this model keeps one of them.
  */
  function DefaultOrder(ps: seq<Product>): (r: seq<Product>)
    ensures NewestFirst(r)
    ensures multiset(r) == multiset(ps)
  {
    if |ps| == 0 then []
    else
      assert ps == [ps[0]] + ps[1..];
      InsertByAge(ps[0], DefaultOrder(ps[1..]))
  }

  /** Any subsequence of a newest-first listing is itself newest first. */
  lemma {:induction false} SubsequenceNewestFirst(a: seq<Product>, b: seq<Product>)
    requires IsSubsequence(a, b)
    requires NewestFirst(b)
    ensures NewestFirst(a)
    decreases |b|
  {
    if |a| == 0 {
    } else if a[0] == b[0] {
      SubsequenceNewestFirst(a[1..], b[1..]);
      SubsequenceMembers(a[1..], b[1..]);
      forall j | 0 < j < |a| ensures a[0].createdAt >= a[j].createdAt {
        assert a[j] == a[1..][j - 1];
        assert a[j] in b[1..];
      }
      forall i, j | 0 <= i < j < |a| ensures a[i].createdAt >= a[j].createdAt {
        if i > 0 {
          assert a[i] == a[1..][i - 1] && a[j] == a[1..][j - 1];
        }
      }
    } else {
      SubsequenceNewestFirst(a, b[1..]);
    }
  }
}

=== FILE: catalog_serializers.dfy ===
/**
  The product and category serializers (ecommerce_api/catalog/serializers.py):
  which declared fields a client may write, the hand-written
  `ProductSerializer.validate`, and the create and update paths that turn a
  validated payload into a product row. The framework's per-field checks that
  come from the model declarations (required on a full write, non-blank,
  length, digits, an existing category, a non-negative stock) run before
  `validate` and are modelled with it.
*/
module CatalogSerializers {
  import opened Wrappers
  import opened Text
  import opened CatalogModels

  /** `CategorySerializer.Meta.fields` and `read_only_fields`. */
  const CategoryFields: seq<Field> := [Id, Name, Slug, CreatedAt]
  const CategoryReadOnly: set<Field> := {Id, CreatedAt}

  /**
    `ProductSerializer.Meta.fields`; `read_only_fields` plus `category_name`,
    which is declared read-only on its own.
  */
  const ProductFields: seq<Field> :=
    [Id, Name, Description, Price, CategoryId, CategoryName,
     StockQty, ImageUrl, IsActive, CreatedAt, UpdatedAt]
  const ProductReadOnly: set<Field> := {Id, CreatedAt, UpdatedAt, CategoryName}

  /** The declared fields a request may set. */
  function Writable(fields: seq<Field>, readOnly: set<Field>): set<Field> {
    set f | f in fields && f !in readOnly
  }

  /** A category request may set only its name and slug. */
  lemma CategoryWritableFields()
    ensures Writable(CategoryFields, CategoryReadOnly) == {Name, Slug}
  {
    assert CategoryFields[1] == Name && CategoryFields[2] == Slug;
  }

  /** A product request may set every declared field except id, the timestamps and category_name. */
  lemma ProductWritableFields()
    ensures Writable(ProductFields, ProductReadOnly) ==
      {Name, Description, Price, CategoryId, StockQty, ImageUrl, IsActive}
  {
    var fs := ProductFields;
    assert fs[1] == Name && fs[2] == Description && fs[3] == Price && fs[4] == CategoryId;
    assert fs[6] == StockQty && fs[7] == ImageUrl && fs[8] == IsActive;
  }

  /**
    A product request body as the client sent it: any declared field may be
    present, including the read-only ones. Prices are in cents.
  */
  datatype ProductBody = ProductBody(
    id: Option<int>,
    name: Option<string>,
    description: Option<string>,
    price: Option<int>,
    category: Option<int>,
    categoryName: Option<string>,
    stockQty: Option<int>,
    imageUrl: Option<string>,
    isActive: Option<bool>,
    createdAt: Option<int>,
    updatedAt: Option<int>)

  /** The validated data handed to `validate`: the writable fields that were supplied. */
  datatype Payload = Payload(
    name: Option<string>,
    description: Option<string>,
    price: Option<int>,
    category: Option<int>,
    stockQty: Option<int>,
    imageUrl: Option<string>,
    isActive: Option<bool>)

  const EmptyBody: ProductBody := ProductBody(None, None, None, None, None, None, None, None, None, None, None)

  /** Whether the body carries a value for the field. */
  predicate Sent(b: ProductBody, f: Field) {
    match f
    case Id => b.id.Some?
    case Name => b.name.Some?
    case Description => b.description.Some?
    case Price => b.price.Some?
    case CategoryId => b.category.Some?
    case CategoryName => b.categoryName.Some?
    case StockQty => b.stockQty.Some?
    case ImageUrl => b.imageUrl.Some?
    case IsActive => b.isActive.Some?
    case CreatedAt => b.createdAt.Some?
    case UpdatedAt => b.updatedAt.Some?
    case Slug => false
  }

  /** Whether the validated data holds a value for the field. */
  predicate Supplied(d: Payload, f: Field) {
    match f
    case Name => d.name.Some?
    case Description => d.description.Some?
    case Price => d.price.Some?
    case CategoryId => d.category.Some?
    case StockQty => d.stockQty.Some?
    case ImageUrl => d.imageUrl.Some?
    case IsActive => d.isActive.Some?
    case _ => false
  }

  function BodyKeys(b: ProductBody): set<Field> {
    set f | f in AllFields && Sent(b, f)
  }

  /** The keys of the validated data. */
  function Keys(d: Payload): set<Field> {
    set f | f in AllFields && Supplied(d, f)
  }

  /** A text value as the framework's character fields read it: stripped of surrounding whitespace. */
  function ReadText(o: Option<string>): (r: Option<string>)
    ensures r.Some? <==> o.Some?
    ensures r.Some? ==> r.value == Trim(o.value)
  {
    match o
    case Some(v) => Some(Trim(v))
    case None => None
  }

  function ReadBody(b: ProductBody): Payload {
    Payload(ReadText(b.name), ReadText(b.description), b.price, b.category, b.stockQty,
            ReadText(b.imageUrl), b.isActive)
  }

  /**
    Reading a body keeps exactly the writable keys that were sent: `id`,
    `created_at`, `updated_at` and `category_name` are never taken from input.
    Values are kept as sent, except that the three text fields (name,
    description, image_url) lose their surrounding whitespace.
  */
  function Deserialize(b: ProductBody): (d: Payload)
    ensures Keys(d) == BodyKeys(b) * Writable(ProductFields, ProductReadOnly)
    ensures d.price == b.price && d.category == b.category && d.stockQty == b.stockQty && d.isActive == b.isActive
    ensures d.name.Some? <==> b.name.Some?
    ensures b.name.Some? ==> d.name == Some(Trim(b.name.value))
    ensures b.description.Some? ==> d.description == Some(Trim(b.description.value))
    ensures b.imageUrl.Some? ==> d.imageUrl == Some(Trim(b.imageUrl.value))
  {
    WritableKeysOfBody(b);
    ReadBody(b)
  }

  lemma WritableKeysOfBody(b: ProductBody)
    ensures Keys(ReadBody(b)) == BodyKeys(b) * Writable(ProductFields, ProductReadOnly)
  {
    var d := ReadBody(b);
    var w := Writable(ProductFields, ProductReadOnly);
    ProductWritableFields();
    forall f ensures f in Keys(d) <==> f in BodyKeys(b) && f in w {
      AllFieldsListed(f);
      SuppliedWhenSentAndWritable(b, f);
    }
  }

  lemma SuppliedWhenSentAndWritable(b: ProductBody, f: Field)
    ensures Supplied(ReadBody(b), f) <==>
      Sent(b, f) && f in {Name, Description, Price, CategoryId, StockQty, ImageUrl, IsActive}
  {
    match f
    case Name =>
    case Description =>
    case ImageUrl =>
    case _ =>
  }

  /** Two bodies that agree on the writable fields deserialize alike, whatever read-only values they carry. */
  lemma ReadOnlyFieldsIgnored(b1: ProductBody, b2: ProductBody)
    requires b1.(id := None, categoryName := None, createdAt := None, updatedAt := None)
          == b2.(id := None, categoryName := None, createdAt := None, updatedAt := None)
    ensures Deserialize(b1) == Deserialize(b2)
  {
  }

  /** A validation error keyed by the offending field, as the serializer reports it. */
  datatype ValidationError = ValidationError(field: Field, message: string)

  const RequiredMessage: string := "This field is required."
  const NegativePriceMessage: string := "Price cannot be negative."

  /** The fields `validate` demands on create, in the order it checks them. */
  const RequiredOnCreate: seq<Field> := [Name, Price, StockQty, CategoryId]

  /** The index of the first field of `required` that is not among `keys`. */
  function FirstMissing(required: seq<Field>, keys: set<Field>): (r: Option<nat>)
    ensures r.None? <==> forall i :: 0 <= i < |required| ==> required[i] in keys
    ensures r.Some? ==>
      && r.value < |required|
      && required[r.value] !in keys
      && forall j :: 0 <= j < r.value ==> required[j] in keys
  {
    if |required| == 0 then None
    else if required[0] !in keys then Some(0)
    else
      match FirstMissing(required[1..], keys)
      case None => None
      case Some(k) => Some(k + 1)
  }

  /**
    `ProductSerializer.validate`. On create (no instance yet) the first missing
    field of name, price, stock_qty, category is reported; on any write a
    negative price is reported under "price"; otherwise the data comes back as
    it went in.
  */
  function Validate(instanceExists: bool, data: Payload): (r: Result<Payload, ValidationError>)
    ensures r.Success? <==>
      && (instanceExists || forall i :: 0 <= i < |RequiredOnCreate| ==> RequiredOnCreate[i] in Keys(data))
      && !(data.price.Some? && data.price.value < 0)
    ensures r.Success? ==> r.value == data
    ensures r.Failure? ==> r.error.field in Writable(ProductFields, ProductReadOnly)
    ensures r.Failure? && r.error.message == RequiredMessage ==>
      !instanceExists && r.error.field in RequiredOnCreate && r.error.field !in Keys(data)
    ensures r.Failure? && r.error.message != RequiredMessage ==>
      r.error == ValidationError(Price, NegativePriceMessage) && data.price.Some? && data.price.value < 0
  {
    ProductWritableFields();
    var missing := if instanceExists then None else FirstMissing(RequiredOnCreate, Keys(data));
    if missing.Some? then
      Failure(ValidationError(RequiredOnCreate[missing.value], RequiredMessage))
    else if data.price.Some? && data.price.value < 0 then
      Failure(ValidationError(Price, NegativePriceMessage))
    else
      Success(data)
  }

  /** On create, a payload missing any required field is refused under a missing field's key... */
  lemma MissingFieldRejected(data: Payload, f: Field)
    requires f in RequiredOnCreate && f !in Keys(data)
    ensures Validate(false, data).Failure?
    ensures Validate(false, data).error.message == RequiredMessage
  {
  }

  /** ...and the one reported is the first missing in name, price, stock_qty, category order. */
  lemma FirstMissingFieldReported(data: Payload, i: nat)
    requires i < |RequiredOnCreate| && RequiredOnCreate[i] !in Keys(data)
    requires forall j :: 0 <= j < i ==> RequiredOnCreate[j] in Keys(data)
    ensures Validate(false, data) == Failure(ValidationError(RequiredOnCreate[i], RequiredMessage))
  {
    var m := FirstMissing(RequiredOnCreate, Keys(data));
    assert m.Some?;
  }

  /** Providing all four required fields with a price of at least zero is accepted on create. */
  lemma CompleteCreateAccepted(data: Payload)
    requires data.name.Some? && data.price.Some? && data.stockQty.Some? && data.category.Some?
    requires data.price.value >= 0
    ensures Validate(false, data) == Success(data)
  {
    assert forall i :: 0 <= i < |RequiredOnCreate| ==> RequiredOnCreate[i] in Keys(data);
  }

  /** On update, missing fields are never an error: only a negative price is. */
  lemma UpdateNeverRequiresFields(data: Payload)
    ensures Validate(true, data).Success? <==> !(data.price.Some? && data.price.value < 0)
  {
  }

  /**
    A negative price is refused on every write. It is reported under "price"
    unless, on create, a required field is missing: that check comes first.
  */
  lemma NegativePriceRejected(instanceExists: bool, data: Payload)
    requires data.price.Some? && data.price.value < 0
    ensures Validate(instanceExists, data).Failure?
    ensures instanceExists || (data.name.Some? && data.stockQty.Some? && data.category.Some?)
      ==> Validate(instanceExists, data) == Failure(ValidationError(Price, NegativePriceMessage))
  {
    if !instanceExists && data.name.Some? && data.stockQty.Some? && data.category.Some? {
      assert forall i :: 0 <= i < |RequiredOnCreate| ==> RequiredOnCreate[i] in Keys(data);
    }
  }

  /** The price check is strict: a price of zero passes. */
  lemma ZeroPriceAccepted(data: Payload)
    requires data.price == Some(0)
    ensures Validate(true, data) == Success(data)
    ensures data.name.Some? && data.stockQty.Some? && data.category.Some? ==> Validate(false, data) == Success(data)
  {
    if data.name.Some? && data.stockQty.Some? && data.category.Some? {
      CompleteCreateAccepted(data);
    }
  }

  /** `validate` is idempotent and neither adds nor drops keys. */
  lemma ValidateIdempotent(instanceExists: bool, data: Payload)
    requires Validate(instanceExists, data).Success?
    ensures Keys(Validate(instanceExists, data).value) == Keys(data)
    ensures Validate(instanceExists, Validate(instanceExists, data).value) == Validate(instanceExists, data)
  {
  }

  /**
    The product fields the model declares with neither a default nor
    `blank=True`: a full write (create, or an update that is not partial)
    must send them.
  */
  const RequiredByModel: set<Field> := {Name, Price, CategoryId}

  /**
    The framework's per-field checks derived from the model declarations, run
    before `validate`: on a full write a missing name, price or category; a
    blank name (empty once stripped) or one over 200 characters; a price with
    more than 12 digits; a category id that does not exist; a negative stock
    quantity; an image URL over 200 characters; a name, description or image
    URL holding a NUL character. A partial write skips the missing-field
    check.
  */
  function FieldErrors(s: Store, data: Payload, partial: bool): (bad: set<Field>)
    ensures Name in bad <==>
      || (data.name.None? && !partial)
      || (data.name.Some? && (data.name.value == "" || |data.name.value| > ProductNameMaxLength))
      || (data.name.Some? && HasNullChar(data.name.value))
    ensures Description in bad <==> data.description.Some? && HasNullChar(data.description.value)
    ensures Price in bad <==>
      (data.price.None? && !partial) || (data.price.Some? && !PriceFits(data.price.value))
    ensures CategoryId in bad <==>
      (data.category.None? && !partial)
      || (data.category.Some? && !HasCategoryId(s.categories, data.category.value))
    ensures StockQty in bad <==> data.stockQty.Some? && data.stockQty.value < 0
    ensures ImageUrl in bad <==>
      data.imageUrl.Some? && (|data.imageUrl.value| > ImageUrlMaxLength || HasNullChar(data.imageUrl.value))
    ensures bad <= CheckedFields
    ensures partial ==> bad <= Keys(data)
  {
    FlaggedFieldsBounded(s, data, partial);
    FlaggedMeaning(s, data, partial);
    FlaggedFieldsMembership(s, data, partial);
    FlaggedFields(s, data, partial)
  }

  /** The product fields the framework checks against the model declarations. */
  const CheckedFields: set<Field> := {Name, Description, Price, CategoryId, StockQty, ImageUrl}

  /** The checked fields whose check fails. */
  function FlaggedFields(s: Store, data: Payload, partial: bool): set<Field> {
    set f | f in CheckedFields && Flagged(s, data, partial, f)
  }

  lemma FlaggedFieldsMembership(s: Store, data: Payload, partial: bool)
    ensures Name in FlaggedFields(s, data, partial) <==> Flagged(s, data, partial, Name)
    ensures Description in FlaggedFields(s, data, partial) <==> Flagged(s, data, partial, Description)
    ensures Price in FlaggedFields(s, data, partial) <==> Flagged(s, data, partial, Price)
    ensures CategoryId in FlaggedFields(s, data, partial) <==> Flagged(s, data, partial, CategoryId)
    ensures StockQty in FlaggedFields(s, data, partial) <==> Flagged(s, data, partial, StockQty)
    ensures ImageUrl in FlaggedFields(s, data, partial) <==> Flagged(s, data, partial, ImageUrl)
  {
  }

  /** Only checked fields are flagged, and a partial write flags only keys it sent. */
  lemma FlaggedFieldsBounded(s: Store, data: Payload, partial: bool)
    ensures FlaggedFields(s, data, partial) <= CheckedFields
    ensures partial ==> FlaggedFields(s, data, partial) <= Keys(data)
  {
    CheckedFieldsInKeys(data);
    FlaggedMeaning(s, data, partial);
  }

  /** Whether the framework's check of field `f` fails. */
  predicate Flagged(s: Store, data: Payload, partial: bool, f: Field) {
    match f
    case Name =>
      if data.name.None? then !partial
      else data.name.value == "" || |data.name.value| > ProductNameMaxLength || HasNullChar(data.name.value)
    case Description => data.description.Some? && HasNullChar(data.description.value)
    case Price =>
      if data.price.None? then !partial else !PriceFits(data.price.value)
    case CategoryId =>
      if data.category.None? then !partial else !HasCategoryId(s.categories, data.category.value)
    case StockQty => data.stockQty.Some? && data.stockQty.value < 0
    case ImageUrl =>
      data.imageUrl.Some? && (|data.imageUrl.value| > ImageUrlMaxLength || HasNullChar(data.imageUrl.value))
    case _ => false
  }

  /** What each of the framework's field checks tests. */
  lemma FlaggedMeaning(s: Store, data: Payload, partial: bool)
    ensures Flagged(s, data, partial, Name) <==>
      || (data.name.None? && !partial)
      || (data.name.Some? && (data.name.value == "" || |data.name.value| > ProductNameMaxLength))
      || (data.name.Some? && HasNullChar(data.name.value))
    ensures Flagged(s, data, partial, Description) <==>
      data.description.Some? && HasNullChar(data.description.value)
    ensures Flagged(s, data, partial, Price) <==>
      (data.price.None? && !partial) || (data.price.Some? && !PriceFits(data.price.value))
    ensures Flagged(s, data, partial, CategoryId) <==>
      (data.category.None? && !partial)
      || (data.category.Some? && !HasCategoryId(s.categories, data.category.value))
    ensures Flagged(s, data, partial, StockQty) <==> data.stockQty.Some? && data.stockQty.value < 0
    ensures Flagged(s, data, partial, ImageUrl) <==>
      data.imageUrl.Some? && (|data.imageUrl.value| > ImageUrlMaxLength || HasNullChar(data.imageUrl.value))
    ensures forall f :: f !in CheckedFields ==> !Flagged(s, data, partial, f)
  {
  }

  /** The six checked fields are keys of the data whenever they hold a value. */
  lemma CheckedFieldsInKeys(d: Payload)
    ensures d.name.Some? ==> Name in Keys(d)
    ensures d.description.Some? ==> Description in Keys(d)
    ensures d.price.Some? ==> Price in Keys(d)
    ensures d.category.Some? ==> CategoryId in Keys(d)
    ensures d.stockQty.Some? ==> StockQty in Keys(d)
    ensures d.imageUrl.Some? ==> ImageUrl in Keys(d)
  {
    AllFieldsListed(Name);
    AllFieldsListed(Description);
    AllFieldsListed(Price);
    AllFieldsListed(CategoryId);
    AllFieldsListed(StockQty);
    AllFieldsListed(ImageUrl);
  }

  /** Why a product write was refused. */
  datatype WriteError =
    | FieldInvalid(fields: set<Field>)
    | Rejected(error: ValidationError)
    | ProductNotFound

  /** Row `q` holds, at field `f`, the value the validated data supplies for it. */
  predicate TakesSupplied(q: Product, d: Payload, f: Field) {
    match f
    case Name => d.name == Some(q.name)
    case Description => d.description == Some(q.description)
    case Price => d.price == Some(q.priceCents)
    case CategoryId => d.category == Some(q.category as int)
    case StockQty => d.stockQty == Some(q.stockQty as int)
    case ImageUrl => d.imageUrl == Some(q.imageUrl)
    case IsActive => d.isActive == Some(q.isActive)
    case _ => false
  }

  /** Two rows hold the same value at field `f`; a field a product row lacks is trivially the same. */
  predicate SameAt(p: Product, q: Product, f: Field) {
    match f
    case Id => p.id == q.id
    case Name => p.name == q.name
    case Description => p.description == q.description
    case Price => p.priceCents == q.priceCents
    case CategoryId => p.category == q.category
    case StockQty => p.stockQty == q.stockQty
    case ImageUrl => p.imageUrl == q.imageUrl
    case IsActive => p.isActive == q.isActive
    case CreatedAt => p.createdAt == q.createdAt
    case UpdatedAt => p.updatedAt == q.updatedAt
    case Slug => true
    case CategoryName => true
  }

  /**
    Saving validated data onto a row: every key of the data takes the value
    sent, and every other field, including id and both timestamps, keeps its
    stored value.
  */
  function Apply(p: Product, data: Payload): (q: Product)
    requires data.stockQty.Some? ==> data.stockQty.value >= 0
    requires data.category.Some? ==> data.category.value >= 0
    ensures forall f :: f in Keys(data) ==> TakesSupplied(q, data, f)
    ensures forall f :: f !in Keys(data) ==> SameAt(p, q, f)
    ensures q.id == p.id && q.createdAt == p.createdAt && q.updatedAt == p.updatedAt
  {
    var q := p.(
      name := if data.name.Some? then data.name.value else p.name,
      description := if data.description.Some? then data.description.value else p.description,
      priceCents := if data.price.Some? then data.price.value else p.priceCents,
      category := if data.category.Some? then data.category.value else p.category,
      stockQty := if data.stockQty.Some? then data.stockQty.value else p.stockQty,
      imageUrl := if data.imageUrl.Some? then data.imageUrl.value else p.imageUrl,
      isActive := if data.isActive.Some? then data.isActive.value else p.isActive);
    ApplyByKeys(p, data, q);
    q
  }

  lemma ApplyByKeys(p: Product, data: Payload, q: Product)
    requires q == p.(
      name := if data.name.Some? then data.name.value else p.name,
      description := if data.description.Some? then data.description.value else p.description,
      priceCents := if data.price.Some? then data.price.value else p.priceCents,
      category := if data.category.Some? && data.category.value >= 0 then data.category.value else p.category,
      stockQty := if data.stockQty.Some? && data.stockQty.value >= 0 then data.stockQty.value else p.stockQty,
      imageUrl := if data.imageUrl.Some? then data.imageUrl.value else p.imageUrl,
      isActive := if data.isActive.Some? then data.isActive.value else p.isActive)
    requires data.stockQty.Some? ==> data.stockQty.value >= 0
    requires data.category.Some? ==> data.category.value >= 0
    ensures forall f :: f in Keys(data) ==> TakesSupplied(q, data, f)
    ensures forall f :: f !in Keys(data) ==> SameAt(p, q, f)
  {
    forall f ensures f in Keys(data) <==> Supplied(data, f) {
      AllFieldsListed(f);
    }
  }

  /** The row a successful create inserts: the model defaults, overwritten by the supplied fields. */
  function CreatedRow(s: Store, d: Payload, now: int): (p: Product)
    requires d.name.Some? && d.price.Some? && d.category.Some? && d.category.value >= 0
    requires d.stockQty.Some? ==> d.stockQty.value >= 0
  {
    Apply(NewProduct(s.nextProductId, d.name.value, d.price.value, d.category.value, now), d)
  }

  /** Data that passed `validate` on create holds all four required fields. */
  lemma ValidatedCreateComplete(d: Payload)
    requires Validate(false, d).Success?
    ensures d.name.Some? && d.price.Some? && d.stockQty.Some? && d.category.Some?
  {
    assert RequiredOnCreate[0] in Keys(d) && RequiredOnCreate[1] in Keys(d);
    assert RequiredOnCreate[2] in Keys(d) && RequiredOnCreate[3] in Keys(d);
  }

  /** Inserting the row for data that passed both the field checks and `validate`. */
  function InsertCreated(s: Store, body: ProductBody, now: int): (r: Store)
    requires Valid(s)
    requires FieldErrors(s, Deserialize(body), false) == {} && Validate(false, Deserialize(body)).Success?
    ensures Valid(r)
    ensures r.categories == s.categories
    ensures |r.products| == |s.products| + 1 && r.products[..|s.products|] == s.products
    ensures CreatedAsRequested(s, body, now, r.products[|s.products|])
  {
    var d := Deserialize(body);
    ValidatedCreateComplete(d);
    assert HasCategoryId(s.categories, d.category.value);
    var k :| 0 <= k < |s.categories| && s.categories[k].id == d.category.value;
    CreatedRowAsRequested(s, body, now);
    var r := AddProduct(s, CreatedRow(s, d, now));
    assert r.products[..|s.products|] == s.products;
    r
  }

  /**
    Creating a product from a request body: a full write, so the framework's
    checks demand name, price and category before `validate` runs. The id and
    both timestamps come from the store and the clock; absent optional fields
    take the model defaults (blank description and image URL, active). The
    store invariant is preserved.
  */
  function CreateProduct(s: Store, body: ProductBody, now: int): (r: Result<Store, WriteError>)
    requires Valid(s)
    ensures r.Success? <==>
      FieldErrors(s, Deserialize(body), false) == {} && Validate(false, Deserialize(body)).Success?
    ensures FieldErrors(s, Deserialize(body), false) != {} ==>
      r == Failure(FieldInvalid(FieldErrors(s, Deserialize(body), false)))
    ensures FieldErrors(s, Deserialize(body), false) == {} && r.Failure? ==>
      r == Failure(Rejected(Validate(false, Deserialize(body)).error))
    ensures r.Success? ==>
      && Valid(r.value)
      && r.value.categories == s.categories
      && |r.value.products| == |s.products| + 1
      && r.value.products[..|s.products|] == s.products
      && CreatedAsRequested(s, body, now, r.value.products[|s.products|])
  {
    var data := Deserialize(body);
    var bad := FieldErrors(s, data, false);
    if bad != {} then Failure(FieldInvalid(bad))
    else match Validate(false, data)
      case Failure(e) => Failure(Rejected(e))
      case Success(_) =>
        Success(InsertCreated(s, body, now))
  }

  /**
    The inserted row: a fresh id and the clock's timestamps, the four required
    values as sent (the name stripped of surrounding whitespace), and the model
    defaults where an optional field was absent.
  */
  predicate CreatedAsRequested(s: Store, body: ProductBody, now: int, p: Product) {
    && p.id == s.nextProductId
    && (forall i :: 0 <= i < |s.products| ==> s.products[i].id != p.id)
    && p.createdAt == now && p.updatedAt == now
    && body.name.Some? && p.name == Trim(body.name.value)
    && Some(p.priceCents) == body.price
    && Some(p.category as int) == body.category && Some(p.stockQty as int) == body.stockQty
    && p.isActive == (if body.isActive.Some? then body.isActive.value else true)
    && p.description == (if body.description.Some? then Trim(body.description.value) else "")
    && p.imageUrl == (if body.imageUrl.Some? then Trim(body.imageUrl.value) else "")
  }

  lemma CreatedRowAsRequested(s: Store, body: ProductBody, now: int)
    requires Valid(s)
    requires body.name.Some? && body.price.Some? && body.stockQty.Some? && body.category.Some?
    requires body.category.value >= 0 && body.stockQty.value >= 0
    ensures CreatedAsRequested(s, body, now, CreatedRow(s, Deserialize(body), now))
  {
    var p := CreatedRow(s, Deserialize(body), now);
    forall i | 0 <= i < |s.products| ensures s.products[i].id != p.id {
      assert ProductWellFormed(s, s.products[i]);
    }
  }

  /** A negative stock quantity never reaches the table: the write is refused under "stock_qty". */
  lemma NegativeStockRejected(s: Store, body: ProductBody, now: int)
    requires Valid(s)
    requires body.stockQty.Some? && body.stockQty.value < 0
    ensures CreateProduct(s, body, now).Failure?
    ensures CreateProduct(s, body, now).error.FieldInvalid? && StockQty in CreateProduct(s, body, now).error.fields
  {
    assert StockQty in FieldErrors(s, Deserialize(body), false);
  }

  /** A name that is empty or whitespace only is refused under "name" before `validate` runs. */
  lemma BlankNameRejected(s: Store, body: ProductBody, now: int)
    requires Valid(s)
    requires body.name.Some? && AllSpace(body.name.value)
    ensures CreateProduct(s, body, now).Failure?
    ensures CreateProduct(s, body, now).error.FieldInvalid? && Name in CreateProduct(s, body, now).error.fields
  {
    assert Name in FieldErrors(s, Deserialize(body), false);
  }

  /**
    A name or description holding a NUL character, wherever it sits in the
    body's value, is refused under its own key before `validate` runs.
  */
  lemma NullCharRejected(s: Store, body: ProductBody, now: int)
    requires Valid(s)
    requires (body.name.Some? && HasNullChar(body.name.value))
          || (body.description.Some? && HasNullChar(body.description.value))
    ensures CreateProduct(s, body, now).Failure? && CreateProduct(s, body, now).error.FieldInvalid?
    ensures body.name.Some? && HasNullChar(body.name.value) ==> Name in CreateProduct(s, body, now).error.fields
    ensures body.description.Some? && HasNullChar(body.description.value) ==>
      Description in CreateProduct(s, body, now).error.fields
  {
    var d := Deserialize(body);
    if body.name.Some? {
      TrimKeepsNonSpace(body.name.value, '\0');
    }
    if body.description.Some? {
      TrimKeepsNonSpace(body.description.value, '\0');
    }
    assert d.name.Some? && HasNullChar(d.name.value) ==> Name in FieldErrors(s, d, false);
    assert d.description.Some? && HasNullChar(d.description.value) ==> Description in FieldErrors(s, d, false);
  }

  /**
    On create, a missing name, price or category is refused by the
    framework's own check, under that field's key, before `validate` runs.
  */
  lemma CreateRequiresModelFields(s: Store, body: ProductBody, now: int, f: Field)
    requires Valid(s)
    requires f in RequiredByModel && !Sent(body, f)
    ensures CreateProduct(s, body, now).Failure?
    ensures CreateProduct(s, body, now).error.FieldInvalid? && f in CreateProduct(s, body, now).error.fields
  {
    MissingRequiredFlagged(s, body, f);
  }

  /** On a full write, a model-required field the body leaves out is flagged. */
  lemma MissingRequiredFlagged(s: Store, body: ProductBody, f: Field)
    requires f in RequiredByModel && !Sent(body, f)
    ensures f in FieldErrors(s, Deserialize(body), false)
  {
    var d := Deserialize(body);
    match f
    case Name => assert d.name.None?;
    case Price => assert d.price.None?;
    case CategoryId => assert d.category.None?;
  }

  /**
    Of `validate`'s four required fields only stock_qty can still be missing
    once the framework's checks pass; it is then reported by `validate`. So
    the model default stock_qty = 0 is never used by a create.
  */
  lemma CreateMissingStockReportedByValidate(s: Store, body: ProductBody, now: int)
    requires Valid(s)
    requires FieldErrors(s, Deserialize(body), false) == {} && body.stockQty.None?
    ensures CreateProduct(s, body, now) == Failure(Rejected(ValidationError(StockQty, RequiredMessage)))
  {
    var d := Deserialize(body);
    MissingStockReported(d);
    var r := CreateProduct(s, body, now);
    assert !r.Success?;
  }

  /** With name and price present and stock_qty absent, `validate` on create reports stock_qty. */
  lemma MissingStockReported(d: Payload)
    requires d.name.Some? && d.price.Some? && d.stockQty.None?
    ensures Validate(false, d) == Failure(ValidationError(StockQty, RequiredMessage))
  {
    AllFieldsListed(Name);
    AllFieldsListed(Price);
    assert Name in Keys(d) && Price in Keys(d) && StockQty !in Keys(d);
    FirstMissingFieldReported(d, 2);
  }

  /** The position of the product with the given id, if any. */
  function FindProduct(ps: seq<Product>, id: int): (r: Option<nat>)
    ensures r.None? <==> forall i :: 0 <= i < |ps| ==> ps[i].id != id
    ensures r.Some? ==> r.value < |ps| && ps[r.value].id == id
  {
    if |ps| == 0 then None
    else if ps[0].id == id then Some(0)
    else
      match FindProduct(ps[1..], id)
      case None =>
        assert forall i :: 1 <= i < |ps| ==> ps[i] == ps[1..][i - 1];
        None
      case Some(k) => Some(k + 1)
  }

  /**
    Updating an existing product: a full update (PUT) when `partial` is false,
    which must send name, price and category; a partial one (PATCH) when it is
    true, which needs no field. `validate` itself requires nothing on update.
    The id and creation time are kept, the update time is the clock's,
    supplied fields overwrite, and every other product is untouched.
  */
  function UpdateProduct(s: Store, id: int, body: ProductBody, partial: bool, now: int): (r: Result<Store, WriteError>)
    requires Valid(s)
    ensures (forall i :: 0 <= i < |s.products| ==> s.products[i].id != id) ==> r == Failure(ProductNotFound)
    ensures (exists i :: 0 <= i < |s.products| && s.products[i].id == id) ==>
      (r.Success? <==>
         FieldErrors(s, Deserialize(body), partial) == {} && !(body.price.Some? && body.price.value < 0))
    ensures (exists i :: 0 <= i < |s.products| && s.products[i].id == id)
      && FieldErrors(s, Deserialize(body), partial) != {}
      ==> r == Failure(FieldInvalid(FieldErrors(s, Deserialize(body), partial)))
    ensures (exists i :: 0 <= i < |s.products| && s.products[i].id == id)
      && FieldErrors(s, Deserialize(body), partial) == {} && r.Failure?
      ==> r == Failure(Rejected(ValidationError(Price, NegativePriceMessage)))
    ensures r.Success? ==>
      && Valid(r.value)
      && r.value.categories == s.categories
      && |r.value.products| == |s.products|
      && (exists k :: 0 <= k < |s.products| && s.products[k].id == id
           && (forall i :: 0 <= i < |s.products| && i != k ==> r.value.products[i] == s.products[i])
           && UpdatedAsRequested(s.products[k], Deserialize(body), now, r.value.products[k]))
  {
    match FindProduct(s.products, id)
    case None =>
      assert !exists i :: 0 <= i < |s.products| && s.products[i].id == id;
      Failure(ProductNotFound)
    case Some(k) =>
      UpdateRow(s, k, body, partial, now)
  }

  /** The update of the row at position `k`, once the product has been found. */
  function UpdateRow(s: Store, k: nat, body: ProductBody, partial: bool, now: int): (r: Result<Store, WriteError>)
    requires Valid(s) && k < |s.products|
    ensures r.Success? <==>
      FieldErrors(s, Deserialize(body), partial) == {} && !(body.price.Some? && body.price.value < 0)
    ensures FieldErrors(s, Deserialize(body), partial) != {} ==>
      r == Failure(FieldInvalid(FieldErrors(s, Deserialize(body), partial)))
    ensures FieldErrors(s, Deserialize(body), partial) == {} && r.Failure? ==>
      r == Failure(Rejected(ValidationError(Price, NegativePriceMessage)))
    ensures r.Success? ==>
      && Valid(r.value)
      && r.value.categories == s.categories
      && |r.value.products| == |s.products|
      && r.value.products == s.products[k := r.value.products[k]]
      && UpdatedAsRequested(s.products[k], Deserialize(body), now, r.value.products[k])
  {
    var data := Deserialize(body);
    var bad := FieldErrors(s, data, partial);
    UpdateNeverRequiresFields(data);
    if bad != {} then Failure(FieldInvalid(bad))
    else match Validate(true, data)
      case Failure(e) => Failure(Rejected(e))
      case Success(d) =>
        FieldChecksPassed(s, d, partial);
        Success(SaveUpdate(s, k, d, now))
  }

  /**
    The row after an update: every key of the data takes the value sent,
    updated_at is the clock's, and every other field (id and created_at
    included) keeps its stored value.
  */
  predicate UpdatedAsRequested(before: Product, d: Payload, now: int, after: Product) {
    && (forall f :: f in Keys(d) ==> TakesSupplied(after, d, f))
    && (forall f :: f !in Keys(d) && f != UpdatedAt ==> SameAt(before, after, f))
    && after.updatedAt == now
  }

  /** What data that passed the framework's checks can be relied on for. */
  lemma FieldChecksPassed(s: Store, d: Payload, partial: bool)
    requires FieldErrors(s, d, partial) == {}
    ensures d.name.Some? ==> 0 < |d.name.value| <= ProductNameMaxLength
    ensures d.price.Some? ==> PriceFits(d.price.value)
    ensures d.category.Some? ==> HasCategoryId(s.categories, d.category.value)
    ensures d.stockQty.Some? ==> d.stockQty.value >= 0
    ensures d.imageUrl.Some? ==> |d.imageUrl.value| <= ImageUrlMaxLength
  {
    assert Name !in FieldErrors(s, d, partial);
  }

  /** Writing data that passed the field checks onto row `k`; the update time is the clock's. */
  function SaveUpdate(s: Store, k: nat, d: Payload, now: int): (r: Store)
    requires Valid(s) && k < |s.products|
    requires d.name.Some? ==> 0 < |d.name.value| <= ProductNameMaxLength
    requires d.price.Some? ==> PriceFits(d.price.value)
    requires d.category.Some? ==> HasCategoryId(s.categories, d.category.value)
    requires d.stockQty.Some? ==> d.stockQty.value >= 0
    requires d.imageUrl.Some? ==> |d.imageUrl.value| <= ImageUrlMaxLength
    ensures Valid(r) && r.categories == s.categories
    ensures |r.products| == |s.products| && r.products == s.products[k := r.products[k]]
    ensures UpdatedAsRequested(s.products[k], d, now, r.products[k])
  {
    assert d.category.Some? ==> d.category.value >= 0 by {
      if d.category.Some? {
        var c :| 0 <= c < |s.categories| && s.categories[c].id == d.category.value;
      }
    }
    assert ProductWellFormed(s, s.products[k]);
    var q := Apply(s.products[k], d).(updatedAt := now);
    AppliedRowFits(s.categories, s.products[k], d, now);
    StampedApply(s.products[k], d, now);
    ReplaceProduct(s, k, q)
  }

  /** A row that fits, overwritten with data that passed the field checks, still fits. */
  lemma AppliedRowFits(cats: seq<Category>, p: Product, d: Payload, now: int)
    requires ProductFits(cats, p)
    requires d.name.Some? ==> 0 < |d.name.value| <= ProductNameMaxLength
    requires d.price.Some? ==> PriceFits(d.price.value)
    requires d.category.Some? ==> d.category.value >= 0 && HasCategoryId(cats, d.category.value)
    requires d.stockQty.Some? ==> d.stockQty.value >= 0
    requires d.imageUrl.Some? ==> |d.imageUrl.value| <= ImageUrlMaxLength
    ensures ProductFits(cats, Apply(p, d).(updatedAt := now))
  {
  }

  /** Applying the data and stamping the clock is an update as requested. */
  lemma StampedApply(p: Product, d: Payload, now: int)
    requires d.stockQty.Some? ==> d.stockQty.value >= 0
    requires d.category.Some? ==> d.category.value >= 0
    ensures UpdatedAsRequested(p, d, now, Apply(p, d).(updatedAt := now))
  {
    var q := Apply(p, d);
    var q' := q.(updatedAt := now);
    forall f | f in Keys(d) ensures TakesSupplied(q', d, f) {
      assert TakesSupplied(q, d, f);
    }
    forall f | f !in Keys(d) && f != UpdatedAt ensures SameAt(p, q', f) {
      assert SameAt(p, q, f);
    }
  }

  /** A full update that leaves out name, price or category is refused under that field's key. */
  lemma FullUpdateRequiresModelFields(s: Store, id: int, body: ProductBody, now: int, f: Field)
    requires Valid(s)
    requires exists i :: 0 <= i < |s.products| && s.products[i].id == id
    requires f in RequiredByModel && !Sent(body, f)
    ensures UpdateProduct(s, id, body, false, now).Failure?
    ensures UpdateProduct(s, id, body, false, now).error.FieldInvalid?
    ensures f in UpdateProduct(s, id, body, false, now).error.fields
  {
    MissingRequiredFlagged(s, body, f);
  }

  /** A partial update with an empty body succeeds and only moves the row's update time. */
  lemma EmptyPartialUpdateTouchesOnly(s: Store, id: int, now: int)
    requires Valid(s)
    requires exists i :: 0 <= i < |s.products| && s.products[i].id == id
    ensures UpdateProduct(s, id, EmptyBody, true, now).Success?
    ensures
      var r := UpdateProduct(s, id, EmptyBody, true, now).value;
      exists k :: 0 <= k < |s.products| && s.products[k].id == id
        && r.products == s.products[k := s.products[k].(updatedAt := now)]
  {
    var d := Deserialize(EmptyBody);
    EmptyBodyReadsNothing();
    NothingSuppliedNothingFlagged(s, d);
    OnlyRowStamped(s, id, d, now, UpdateProduct(s, id, EmptyBody, true, now).value);
  }

  /** An update that supplied no key leaves the store as it was apart from one row's update time. */
  lemma OnlyRowStamped(s: Store, id: int, d: Payload, now: int, r: Store)
    requires Keys(d) == {} && |r.products| == |s.products|
    requires exists k ::
               && 0 <= k < |s.products| && s.products[k].id == id
               && (forall i :: 0 <= i < |s.products| && i != k ==> r.products[i] == s.products[i])
               && UpdatedAsRequested(s.products[k], d, now, r.products[k])
    ensures exists k ::
              && 0 <= k < |s.products| && s.products[k].id == id
              && r.products == s.products[k := s.products[k].(updatedAt := now)]
  {
    var k :| 0 <= k < |s.products| && s.products[k].id == id
      && (forall i :: 0 <= i < |s.products| && i != k ==> r.products[i] == s.products[i])
      && UpdatedAsRequested(s.products[k], d, now, r.products[k]);
    NothingSuppliedOnlyStamps(s.products[k], d, now, r.products[k]);
    assert r.products == s.products[k := s.products[k].(updatedAt := now)];
  }

  lemma EmptyBodyReadsNothing()
    ensures Deserialize(EmptyBody) == Payload(None, None, None, None, None, None, None)
    ensures Keys(Deserialize(EmptyBody)) == {}
  {
  }

  /** A partial write that supplies no key passes every field check. */
  lemma NothingSuppliedNothingFlagged(s: Store, d: Payload)
    requires Keys(d) == {}
    ensures FieldErrors(s, d, true) == {}
  {
    var bad := FieldErrors(s, d, true);
    assert bad <= {};
  }

  /** An update that supplies no key changes nothing but the update time. */
  lemma NothingSuppliedOnlyStamps(p: Product, d: Payload, now: int, q: Product)
    requires Keys(d) == {} && UpdatedAsRequested(p, d, now, q)
    ensures q == p.(updatedAt := now)
  {
    assert SameAt(p, q, Id) && SameAt(p, q, Name) && SameAt(p, q, Description);
    assert SameAt(p, q, Price) && SameAt(p, q, CategoryId) && SameAt(p, q, StockQty);
    assert SameAt(p, q, ImageUrl) && SameAt(p, q, IsActive) && SameAt(p, q, CreatedAt);
  }

  /**
    Every stored price is at least zero. The table itself would accept a
    negative price; it is `validate` that keeps one out of every API write.
  */
  predicate PricesNonNegative(s: Store) {
    forall i :: 0 <= i < |s.products| ==> s.products[i].priceCents >= 0
  }

  /** A product created through the API never brings a negative price into the table. */
  lemma CreateKeepsPricesNonNegative(s: Store, body: ProductBody, now: int)
    requires Valid(s) && PricesNonNegative(s)
    requires CreateProduct(s, body, now).Success?
    ensures PricesNonNegative(CreateProduct(s, body, now).value)
  {
  }

  /** Nor does an update, full or partial: a row keeps its price or takes a non-negative one. */
  lemma UpdateKeepsPricesNonNegative(s: Store, id: int, body: ProductBody, partial: bool, now: int)
    requires Valid(s) && PricesNonNegative(s)
    requires UpdateProduct(s, id, body, partial, now).Success?
    ensures PricesNonNegative(UpdateProduct(s, id, body, partial, now).value)
  {
  }

  /** A product as the API returns it: the stored fields plus `category_name`. */
  datatype ProductView = ProductView(
    id: nat,
    name: string,
    description: string,
    price: int,
    category: nat,
    categoryName: string,
    stockQty: nat,
    imageUrl: string,
    isActive: bool,
    createdAt: int,
    updatedAt: int)

  /** `category_name` is read at response time from the linked category; it is never stored. */
  function Represent(s: Store, p: Product): (v: ProductView)
    requires Valid(s) && p in s.products
    ensures exists i :: 0 <= i < |s.categories| && s.categories[i].id == p.category && v.categoryName == s.categories[i].name
    ensures v.id == p.id && v.name == p.name && v.description == p.description && v.price == p.priceCents
    ensures v.category == p.category && v.stockQty == p.stockQty && v.imageUrl == p.imageUrl
    ensures v.isActive == p.isActive && v.createdAt == p.createdAt && v.updatedAt == p.updatedAt
  {
    var k :| 0 <= k < |s.products| && s.products[k] == p;
    assert ProductWellFormed(s, s.products[k]);
    var c := FindCategory(s.categories, p.category);
    ProductView(p.id, p.name, p.description, p.priceCents, p.category, c.value.name,
                p.stockQty, p.imageUrl, p.isActive, p.createdAt, p.updatedAt)
  }
}

=== FILE: catalog_views.dfy ===
/**
  The catalog list endpoints (ecommerce_api/catalog/views.py): the query
  parameters of `ProductFilter`, each a predicate on a product row, applied
  one after another to the listing; the ordering whitelists of the product
  and category views; and the product listing itself.
*/
module CatalogViews {
  import opened Wrappers
  import opened Subsequences
  import opened Text
  import opened CatalogModels

  /**
    The filter parameters of a product listing, already parsed: prices in
    cents, flags as booleans. `None` means the parameter was not given.
  */
  datatype ProductQuery = ProductQuery(
    category: Option<int>,
    categorySlug: Option<string>,
    minPrice: Option<int>,
    maxPrice: Option<int>,
    inStock: Option<bool>,
    isActive: Option<bool>)

  const NoFilters: ProductQuery := ProductQuery(None, None, None, None, None, None)

  /** The fields the search box looks in (matching itself is the framework's). */
  const ProductSearchFields: seq<string> := ["name", "category__name"]
  const CategorySearchFields: seq<string> := ["name", "slug"]

  function LowerAscii(c: char): char {
    if 'A' <= c <= 'Z' then (c as int + 32) as char else c
  }

  function Fold(s: string): string {
    seq(|s|, i requires 0 <= i < |s| => LowerAscii(s[i]))
  }

  /** `iexact`: whole-string equality up to letter case. */
  predicate IExact(a: string, b: string) {
    Fold(a) == Fold(b)
  }

  /** `iexact` ignores case but is not a substring match: both sides have the same length. */
  lemma IExactIsWholeString(a: string, b: string)
    requires IExact(a, b)
    ensures |a| == |b|
    ensures forall i :: 0 <= i < |a| ==> LowerAscii(a[i]) == LowerAscii(b[i])
  {
    assert |Fold(a)| == |Fold(b)|;
    forall i | 0 <= i < |a| ensures LowerAscii(a[i]) == LowerAscii(b[i]) {
      assert Fold(a)[i] == Fold(b)[i];
    }
  }

  lemma IExactExamples()
    ensures IExact("Books", "books") && IExact("BOOKS", "books")
    ensures !IExact("book", "books")
  {
    assert Fold("Books") == "books";
    assert Fold("BOOKS") == "books";
    assert |Fold("book")| != |Fold("books")|;
  }

  /** The slug of the product's category, if the category exists. */
  function SlugOf(cats: seq<Category>, p: Product): Option<string> {
    match FindCategory(cats, p.category)
    case Some(c) => Some(c.slug)
    case None => None
  }

  /**
    What a listing query asks of a product: each given parameter constrains
    it, and all of them must hold. `category_slug` is read with surrounding
    whitespace stripped, and one that strips to nothing is no constraint;
    `in_stock=false` is none either.
  */
  predicate Matches(q: ProductQuery, cats: seq<Category>, p: Product) {
    && CategoryMatches(q, p)
    && SlugMatches(q, cats, p)
    && PriceMatches(q, p)
    && StockMatches(q, p)
    && ActiveMatches(q, p)
  }

  predicate CategoryMatches(q: ProductQuery, p: Product) {
    q.category.Some? ==> p.category == q.category.value
  }

  predicate SlugMatches(q: ProductQuery, cats: seq<Category>, p: Product) {
    q.categorySlug.Some? && Trim(q.categorySlug.value) != "" ==>
      SlugOf(cats, p).Some? && IExact(SlugOf(cats, p).value, Trim(q.categorySlug.value))
  }

  predicate PriceMatches(q: ProductQuery, p: Product) {
    && (q.minPrice.Some? ==> p.priceCents >= q.minPrice.value)
    && (q.maxPrice.Some? ==> p.priceCents <= q.maxPrice.value)
  }

  predicate StockMatches(q: ProductQuery, p: Product) {
    q.inStock == Some(true) ==> p.stockQty > 0
  }

  predicate ActiveMatches(q: ProductQuery, p: Product) {
    q.isActive.Some? ==> p.isActive == q.isActive.value
  }

  /** One declared filter with its value. */
  datatype Criterion =
    | CategoryIs(id: int)
    | SlugIExact(slug: string)
    | PriceAtLeast(cents: int)
    | PriceAtMost(cents: int)
    | InStock(flag: bool)
    | ActiveIs(flag: bool)

  /** The rows one filter keeps; `in_stock` goes through `filter_in_stock`, which filters only on true. */
  predicate Holds(c: Criterion, cats: seq<Category>, p: Product) {
    match c
    case CategoryIs(id) => p.category == id
    case SlugIExact(v) => SlugOf(cats, p).Some? && IExact(SlugOf(cats, p).value, v)
    case PriceAtLeast(m) => p.priceCents >= m
    case PriceAtMost(m) => p.priceCents <= m
    case InStock(flag) => if flag then p.stockQty > 0 else true
    case ActiveIs(v) => p.isActive == v
  }

  /**
    The filters a query runs, in declaration order. A parameter whose value
    is empty is skipped before its filter is called; `category_slug` is a
    text filter, whose value is stripped of surrounding whitespace first.
  */
  function Criteria(q: ProductQuery): seq<Criterion> {
    CategoryCriteria(q) + SlugCriteria(q) + PriceCriteria(q) + StockCriteria(q) + ActiveCriteria(q)
  }

  function CategoryCriteria(q: ProductQuery): seq<Criterion> {
    if q.category.Some? then [CategoryIs(q.category.value)] else []
  }

  function SlugCriteria(q: ProductQuery): seq<Criterion> {
    if q.categorySlug.Some? && Trim(q.categorySlug.value) != "" then [SlugIExact(Trim(q.categorySlug.value))] else []
  }

  function PriceCriteria(q: ProductQuery): seq<Criterion> {
    (if q.minPrice.Some? then [PriceAtLeast(q.minPrice.value)] else [])
    + (if q.maxPrice.Some? then [PriceAtMost(q.maxPrice.value)] else [])
  }

  function StockCriteria(q: ProductQuery): seq<Criterion> {
    if q.inStock.Some? then [InStock(q.inStock.value)] else []
  }

  function ActiveCriteria(q: ProductQuery): seq<Criterion> {
    if q.isActive.Some? then [ActiveIs(q.isActive.value)] else []
  }

  predicate AllHold(cs: seq<Criterion>, cats: seq<Category>, p: Product) {
    forall i :: 0 <= i < |cs| ==> Holds(cs[i], cats, p)
  }

  lemma AllHoldAppend(a: seq<Criterion>, b: seq<Criterion>, cats: seq<Category>, p: Product)
    ensures AllHold(a + b, cats, p) <==> AllHold(a, cats, p) && AllHold(b, cats, p)
  {
    if AllHold(a, cats, p) && AllHold(b, cats, p) {
      forall i | 0 <= i < |a + b| ensures Holds((a + b)[i], cats, p) {
        if i >= |a| {
          assert (a + b)[i] == b[i - |a|];
        }
      }
    }
    if AllHold(a + b, cats, p) {
      forall i | 0 <= i < |a| ensures Holds(a[i], cats, p) {
        assert (a + b)[i] == a[i];
      }
      forall i | 0 <= i < |b| ensures Holds(b[i], cats, p) {
        assert (a + b)[i + |a|] == b[i];
      }
    }
  }

  lemma AllHoldSingle(c: Criterion, cats: seq<Category>, p: Product)
    ensures AllHold([c], cats, p) <==> Holds(c, cats, p)
  {
    assert [c][0] == c;
  }

  /** The filters of a query together demand exactly what the query means. */
  lemma CriteriaMeanMatches(q: ProductQuery, cats: seq<Category>, p: Product)
    ensures AllHold(Criteria(q), cats, p) <==> Matches(q, cats, p)
  {
    var c1, c2, c3, c4, c5 := CategoryCriteria(q), SlugCriteria(q), PriceCriteria(q), StockCriteria(q), ActiveCriteria(q);
    AllHoldAppend(c1 + c2 + c3 + c4, c5, cats, p);
    AllHoldAppend(c1 + c2 + c3, c4, cats, p);
    AllHoldAppend(c1 + c2, c3, cats, p);
    AllHoldAppend(c1, c2, cats, p);
    CategoryCriteriaMeaning(q, cats, p);
    SlugCriteriaMeaning(q, cats, p);
    PriceCriteriaMeaning(q, cats, p);
    StockCriteriaMeaning(q, cats, p);
    ActiveCriteriaMeaning(q, cats, p);
  }

  lemma CategoryCriteriaMeaning(q: ProductQuery, cats: seq<Category>, p: Product)
    ensures AllHold(CategoryCriteria(q), cats, p) <==> CategoryMatches(q, p)
  {
    if q.category.Some? { AllHoldSingle(CategoryIs(q.category.value), cats, p); }
  }

  lemma SlugCriteriaMeaning(q: ProductQuery, cats: seq<Category>, p: Product)
    ensures AllHold(SlugCriteria(q), cats, p) <==> SlugMatches(q, cats, p)
  {
    if q.categorySlug.Some? && Trim(q.categorySlug.value) != "" {
      AllHoldSingle(SlugIExact(Trim(q.categorySlug.value)), cats, p);
    }
  }

  lemma StockCriteriaMeaning(q: ProductQuery, cats: seq<Category>, p: Product)
    ensures AllHold(StockCriteria(q), cats, p) <==> StockMatches(q, p)
  {
    if q.inStock.Some? { AllHoldSingle(InStock(q.inStock.value), cats, p); }
  }

  lemma ActiveCriteriaMeaning(q: ProductQuery, cats: seq<Category>, p: Product)
    ensures AllHold(ActiveCriteria(q), cats, p) <==> ActiveMatches(q, p)
  {
    if q.isActive.Some? { AllHoldSingle(ActiveIs(q.isActive.value), cats, p); }
  }

  lemma PriceCriteriaMeaning(q: ProductQuery, cats: seq<Category>, p: Product)
    ensures AllHold(PriceCriteria(q), cats, p) <==> PriceMatches(q, p)
  {
    var lo := if q.minPrice.Some? then [PriceAtLeast(q.minPrice.value)] else [];
    var hi := if q.maxPrice.Some? then [PriceAtMost(q.maxPrice.value)] else [];
    AllHoldAppend(lo, hi, cats, p);
    if q.minPrice.Some? { AllHoldSingle(lo[0], cats, p); }
    if q.maxPrice.Some? { AllHoldSingle(hi[0], cats, p); }
  }

  /** One filter applied to a listing: the kept rows, in their original order. */
  function Keep(c: Criterion, cats: seq<Category>, ps: seq<Product>): (r: seq<Product>)
    ensures IsSubsequence(r, ps)
    ensures forall p :: p in r <==> p in ps && Holds(c, cats, p)
  {
    if |ps| == 0 then []
    else
      var rest := Keep(c, cats, ps[1..]);
      assert forall p :: p in ps <==> p == ps[0] || p in ps[1..];
      assert [ps[0]] + ps[1..] == ps;
      if Holds(c, cats, ps[0]) then
        SubsequenceCons(ps[0], rest, ps[1..]);
        [ps[0]] + rest
      else
        SubsequenceSkip(ps[0], rest, ps[1..]);
        rest
  }

  /** The filter set at work: each filter narrows the listing left by the one before. */
  function ApplyFilters(cs: seq<Criterion>, cats: seq<Category>, ps: seq<Product>): seq<Product>
  {
    if |cs| == 0 then ps else ApplyFilters(cs[1..], cats, Keep(cs[0], cats, ps))
  }

  /** A single pass that keeps the rows every filter accepts. */
  function KeepAll(cs: seq<Criterion>, cats: seq<Category>, ps: seq<Product>): (r: seq<Product>)
    ensures IsSubsequence(r, ps)
    ensures forall p :: p in r <==> p in ps && AllHold(cs, cats, p)
  {
    if |ps| == 0 then []
    else
      var rest := KeepAll(cs, cats, ps[1..]);
      assert forall p :: p in ps <==> p == ps[0] || p in ps[1..];
      assert [ps[0]] + ps[1..] == ps;
      if AllHold(cs, cats, ps[0]) then
        SubsequenceCons(ps[0], rest, ps[1..]);
        [ps[0]] + rest
      else
        SubsequenceSkip(ps[0], rest, ps[1..]);
        rest
  }

  lemma {:induction false} KeepAllAfterKeep(c: Criterion, cs: seq<Criterion>, cats: seq<Category>, ps: seq<Product>)
    ensures KeepAll(cs, cats, Keep(c, cats, ps)) == KeepAll([c] + cs, cats, ps)
  {
    assert forall p :: AllHold([c] + cs, cats, p) <==> Holds(c, cats, p) && AllHold(cs, cats, p) by {
      forall p ensures AllHold([c] + cs, cats, p) <==> Holds(c, cats, p) && AllHold(cs, cats, p) {
        if Holds(c, cats, p) && AllHold(cs, cats, p) {
          forall i | 0 <= i < |[c] + cs| ensures Holds(([c] + cs)[i], cats, p) {
            if i > 0 {
              assert ([c] + cs)[i] == cs[i - 1];
            }
          }
        }
        if AllHold([c] + cs, cats, p) {
          assert ([c] + cs)[0] == c;
          forall i | 0 <= i < |cs| ensures Holds(cs[i], cats, p) {
            assert ([c] + cs)[i + 1] == cs[i];
          }
        }
      }
    }
    if |ps| > 0 {
      KeepAllAfterKeep(c, cs, cats, ps[1..]);
    }
  }

  /** Applying the filters one after another is the same as keeping the rows that pass them all. */
  lemma {:induction false} ApplyFiltersIsKeepAll(cs: seq<Criterion>, cats: seq<Category>, ps: seq<Product>)
    ensures ApplyFilters(cs, cats, ps) == KeepAll(cs, cats, ps)
  {
    if |cs| == 0 {
      KeepAllTrivial(cs, cats, ps);
    } else {
      ApplyFiltersIsKeepAll(cs[1..], cats, Keep(cs[0], cats, ps));
      KeepAllAfterKeep(cs[0], cs[1..], cats, ps);
      assert [cs[0]] + cs[1..] == cs;
    }
  }

  /** When every row passes, nothing is dropped. */
  lemma {:induction false} KeepAllTrivial(cs: seq<Criterion>, cats: seq<Category>, ps: seq<Product>)
    requires forall i :: 0 <= i < |ps| ==> AllHold(cs, cats, ps[i])
    ensures KeepAll(cs, cats, ps) == ps
  {
    if |ps| > 0 {
      KeepAllTrivial(cs, cats, ps[1..]);
      assert [ps[0]] + ps[1..] == ps;
    }
  }

  /**
    `ProductFilter` applied to a listing. The result keeps exactly the rows
    that satisfy every given parameter, and it is a subsequence of the input:
    filtering never adds, duplicates or reorders products.
  */
  function FilterProducts(q: ProductQuery, cats: seq<Category>, ps: seq<Product>): (r: seq<Product>)
    ensures IsSubsequence(r, ps)
    ensures forall p :: p in r <==> p in ps && Matches(q, cats, p)
    ensures multiset(r) <= multiset(ps)
  {
    ApplyFiltersIsKeepAll(Criteria(q), cats, ps);
    var r := ApplyFilters(Criteria(q), cats, ps);
    SubsequenceMultiset(r, ps);
    assert forall p :: AllHold(Criteria(q), cats, p) <==> Matches(q, cats, p) by {
      forall p ensures AllHold(Criteria(q), cats, p) <==> Matches(q, cats, p) {
        CriteriaMeanMatches(q, cats, p);
      }
    }
    r
  }

  /** A query with no parameter returns the listing unchanged. */
  lemma NoFiltersKeepAll(cats: seq<Category>, ps: seq<Product>)
    ensures FilterProducts(NoFilters, cats, ps) == ps
  {
    assert Criteria(NoFilters) == [];
    ApplyFiltersIsKeepAll([], cats, ps);
    KeepAllTrivial([], cats, ps);
  }

  /** `in_stock=false` does not select the out-of-stock products: it returns the listing unchanged. */
  lemma InStockFalseIsNoFilter(cats: seq<Category>, ps: seq<Product>)
    ensures FilterProducts(NoFilters.(inStock := Some(false)), cats, ps) == ps
  {
    var cs := Criteria(NoFilters.(inStock := Some(false)));
    assert cs == [InStock(false)];
    ApplyFiltersIsKeepAll(cs, cats, ps);
    KeepAllTrivial(cs, cats, ps);
  }

  /** `in_stock=true` keeps exactly the products with stock on hand. */
  lemma InStockTrueKeepsStocked(cats: seq<Category>, ps: seq<Product>)
    ensures forall p :: p in FilterProducts(NoFilters.(inStock := Some(true)), cats, ps) <==> p in ps && p.stockQty > 0
  {
  }

  /** `category` keeps exactly the products whose category id equals the value. */
  lemma CategoryFilterExact(id: int, cats: seq<Category>, ps: seq<Product>)
    ensures forall p :: (p in FilterProducts(NoFilters.(category := Some(id)), cats, ps)
      <==> p in ps && p.category == id)
  {
  }

  /**
    `category_slug` keeps the products whose category's slug equals the
    value, stripped of surrounding whitespace, up to letter case.
  */
  lemma SlugFilterCaseInsensitive(v: string, cats: seq<Category>, ps: seq<Product>)
    requires !AllSpace(v)
    ensures forall p :: (p in FilterProducts(NoFilters.(categorySlug := Some(v)), cats, ps)
      <==> p in ps && SlugOf(cats, p).Some? && IExact(SlugOf(cats, p).value, Trim(v)))
  {
  }

  /** A `category_slug` padded with whitespace filters like the stripped value, whatever the other parameters. */
  lemma PaddedSlugFiltersAsStripped(q: ProductQuery, v: string, cats: seq<Category>, ps: seq<Product>)
    ensures FilterProducts(q.(categorySlug := Some(v)), cats, ps)
         == FilterProducts(q.(categorySlug := Some(Trim(v))), cats, ps)
  {
    TrimIdempotent(v);
    assert Criteria(q.(categorySlug := Some(v))) == Criteria(q.(categorySlug := Some(Trim(v))));
  }

  /** An empty or whitespace-only `category_slug` is skipped, like an absent one. */
  lemma EmptySlugIsNoFilter(v: string, cats: seq<Category>, ps: seq<Product>)
    requires AllSpace(v)
    ensures FilterProducts(NoFilters.(categorySlug := Some(v)), cats, ps) == ps
  {
    assert Criteria(NoFilters.(categorySlug := Some(v))) == [];
    ApplyFiltersIsKeepAll([], cats, ps);
    KeepAllTrivial([], cats, ps);
  }

  /** The price bounds are inclusive on both ends. */
  lemma PriceRangeInclusive(lo: int, hi: int, cats: seq<Category>, ps: seq<Product>)
    ensures forall p :: (p in FilterProducts(NoFilters.(minPrice := Some(lo), maxPrice := Some(hi)), cats, ps)
      <==> p in ps && lo <= p.priceCents <= hi)
  {
  }

  /** Filtering twice with the same query changes nothing the second time. */
  lemma FilterIdempotent(q: ProductQuery, cats: seq<Category>, ps: seq<Product>)
    ensures FilterProducts(q, cats, FilterProducts(q, cats, ps)) == FilterProducts(q, cats, ps)
  {
    var r := FilterProducts(q, cats, ps);
    forall i | 0 <= i < |r| ensures AllHold(Criteria(q), cats, r[i]) {
      assert r[i] in r;
      CriteriaMeanMatches(q, cats, r[i]);
    }
    ApplyFiltersIsKeepAll(Criteria(q), cats, r);
    KeepAllTrivial(Criteria(q), cats, r);
  }

  /** The product listing: the filtered rows, newest first. */
  function ListProducts(s: Store, q: ProductQuery): (r: seq<Product>)
    ensures NewestFirst(r)
    ensures forall p :: p in r <==> p in s.products && Matches(q, s.categories, p)
    ensures multiset(r) <= multiset(s.products)
  {
    var ordered := DefaultOrder(s.products);
    var r := FilterProducts(q, s.categories, ordered);
    SubsequenceNewestFirst(r, ordered);
    assert forall p :: p in ordered <==> p in s.products by {
      assert forall p :: p in ordered <==> p in multiset(ordered);
    }
    r
  }

  /** `ordering_fields` of the product and category views. */
  const ProductOrderingFields: seq<Field> := [CreatedAt, Price, Name, StockQty]
  const CategoryOrderingFields: seq<Field> := [Name, CreatedAt]

  /** A sort key: a field, ascending unless written with a leading '-'. */
  datatype OrderTerm = OrderTerm(field: Field, descending: bool)

  /** A product listing with no accepted ordering keeps the model's `-created_at`. */
  const ProductDefaultOrdering: seq<OrderTerm> := [OrderTerm(CreatedAt, true)]
  /** A category listing with no accepted ordering keeps the view's `order_by("name")`. */
  const CategoryDefaultOrdering: seq<OrderTerm> := [OrderTerm(Name, false)]

  /** The whitelisted field a name refers to, if any. */
  function LookupField(name: string, allowed: seq<Field>): (r: Option<Field>)
    ensures r.Some? ==> r.value in allowed && r.value.Key() == name
    ensures r.None? ==> forall i :: 0 <= i < |allowed| ==> allowed[i].Key() != name
  {
    if |allowed| == 0 then None
    else if allowed[0].Key() == name then Some(allowed[0])
    else LookupField(name, allowed[1..])
  }

  /** The field an API name spells, if any: the inverse of `Field.Key`. */
  function FieldNamed(name: string): Option<Field> {
    if name == "id" then Some(Id)
    else if name == "name" then Some(Name)
    else if name == "slug" then Some(Slug)
    else if name == "description" then Some(Description)
    else if name == "price" then Some(Price)
    else if name == "category" then Some(CategoryId)
    else if name == "category_name" then Some(CategoryName)
    else if name == "stock_qty" then Some(StockQty)
    else if name == "image_url" then Some(ImageUrl)
    else if name == "is_active" then Some(IsActive)
    else if name == "created_at" then Some(CreatedAt)
    else if name == "updated_at" then Some(UpdatedAt)
    else None
  }

  /** No two fields share an API name, and none starts with '-'. */
  lemma KeyDistinct(f: Field, g: Field)
    ensures f.Key() == g.Key() ==> f == g
    ensures |f.Key()| > 0 && f.Key()[0] != '-'
  {
    assert FieldNamed(f.Key()) == Some(f);
    assert FieldNamed(g.Key()) == Some(g);
  }

  /**
    One comma-separated ordering term. It is accepted exactly when it is a
    whitelisted field's name, ascending, or that name after a single '-',
    descending.
  */
  function ParseTerm(t: string, allowed: seq<Field>): (r: Option<OrderTerm>)
    ensures r.Some? ==> r.value.field in allowed
    ensures r.Some? && !r.value.descending ==> r.value.field.Key() == t
    ensures r.Some? && r.value.descending ==> t == "-" + r.value.field.Key()
    ensures r.None? <==>
      forall i :: 0 <= i < |allowed| ==> t != allowed[i].Key() && t != "-" + allowed[i].Key()
  {
    var desc := |t| > 0 && t[0] == '-';
    var name := if desc then t[1..] else t;
    ParseTermComplete(t, allowed);
    match LookupField(name, allowed)
    case Some(f) =>
      assert desc ==> t == "-" + name;
      Some(OrderTerm(f, desc))
    case None => None
  }

  lemma ParseTermComplete(t: string, allowed: seq<Field>)
    ensures
      var desc := |t| > 0 && t[0] == '-';
      LookupField(if desc then t[1..] else t, allowed).None? ==>
        forall i :: 0 <= i < |allowed| ==> t != allowed[i].Key() && t != "-" + allowed[i].Key()
  {
    forall i | 0 <= i < |allowed|
      ensures |t| > 0 && t[0] == '-' && t == "-" + allowed[i].Key() ==> t[1..] == allowed[i].Key()
      ensures t == allowed[i].Key() ==> |t| > 0 && t[0] != '-'
    {
      KeyDistinct(allowed[i], allowed[i]);
    }
  }

  /** A whitelisted field is accepted under its own name, and descending after a '-'. */
  lemma WhitelistedTermAccepted(f: Field, allowed: seq<Field>)
    requires f in allowed
    ensures ParseTerm(f.Key(), allowed) == Some(OrderTerm(f, false))
    ensures ParseTerm("-" + f.Key(), allowed) == Some(OrderTerm(f, true))
  {
    var up := ParseTerm(f.Key(), allowed);
    var down := ParseTerm("-" + f.Key(), allowed);
    KeyDistinct(f, f);
    KeyDistinct(up.value.field, f);
    assert ("-" + f.Key())[0] == '-';
    assert ("-" + f.Key())[1..] == f.Key();
    KeyDistinct(down.value.field, f);
  }

  /**
    The terms that survive the whitelist: every accepted term and nothing
    else. Order is kept: see `AcceptedTermsAppend`.
  */
  function AcceptedTerms(terms: seq<string>, allowed: seq<Field>): (r: seq<OrderTerm>)
    ensures |r| <= |terms|
    ensures forall i :: 0 <= i < |r| ==> r[i].field in allowed
    ensures (forall i :: 0 <= i < |terms| ==> ParseTerm(terms[i], allowed).None?) <==> r == []
    ensures forall i :: 0 <= i < |terms| && ParseTerm(terms[i], allowed).Some? ==>
      ParseTerm(terms[i], allowed).value in r
    ensures forall x :: x in r ==> exists i :: 0 <= i < |terms| && ParseTerm(terms[i], allowed) == Some(x)
  {
    if |terms| == 0 then []
    else
      var rest := AcceptedTerms(terms[1..], allowed);
      var r := match ParseTerm(terms[0], allowed)
        case Some(t) => [t] + rest
        case None => rest;
      AcceptedCons(terms, allowed, rest, r);
      r
  }

  /** The five properties `AcceptedTerms` promises of its result `r`. */
  predicate AcceptedFrom(terms: seq<string>, allowed: seq<Field>, r: seq<OrderTerm>) {
    && |r| <= |terms|
    && (forall i :: 0 <= i < |r| ==> r[i].field in allowed)
    && ((forall i :: 0 <= i < |terms| ==> ParseTerm(terms[i], allowed).None?) <==> r == [])
    && (forall i :: 0 <= i < |terms| && ParseTerm(terms[i], allowed).Some? ==>
          ParseTerm(terms[i], allowed).value in r)
    && (forall x :: x in r ==> exists i :: 0 <= i < |terms| && ParseTerm(terms[i], allowed) == Some(x))
  }

  /** Putting the first term's parse, if any, in front of the rest's keeps the properties. */
  lemma AcceptedCons(terms: seq<string>, allowed: seq<Field>, rest: seq<OrderTerm>, r: seq<OrderTerm>)
    requires |terms| > 0 && AcceptedFrom(terms[1..], allowed, rest)
    requires r == (if ParseTerm(terms[0], allowed).Some? then [ParseTerm(terms[0], allowed).value] + rest else rest)
    ensures AcceptedFrom(terms, allowed, r)
  {
    AcceptedConsFields(ParseTerm(terms[0], allowed), allowed, rest, r);
    AcceptedConsEmpty(terms, allowed, rest, r);
    AcceptedConsComplete(terms, allowed, rest, r);
    AcceptedConsSound(terms, allowed, rest, r);
  }

  /** A whitelisted term, if any, in front of whitelisted terms leaves only whitelisted terms. */
  lemma AcceptedConsFields(o: Option<OrderTerm>, allowed: seq<Field>, rest: seq<OrderTerm>, r: seq<OrderTerm>)
    requires o.Some? ==> o.value.field in allowed
    requires forall i :: 0 <= i < |rest| ==> rest[i].field in allowed
    requires r == (if o.Some? then [o.value] + rest else rest)
    ensures forall i :: 0 <= i < |r| ==> r[i].field in allowed
  {
    if o.Some? {
      forall i | 1 <= i < |r| ensures r[i].field in allowed {
        assert r[i] == rest[i - 1];
      }
    }
  }

  lemma AcceptedConsEmpty(terms: seq<string>, allowed: seq<Field>, rest: seq<OrderTerm>, r: seq<OrderTerm>)
    requires |terms| > 0
    requires (forall i :: 0 <= i < |terms[1..]| ==> ParseTerm(terms[1..][i], allowed).None?) <==> rest == []
    requires r == (if ParseTerm(terms[0], allowed).Some? then [ParseTerm(terms[0], allowed).value] + rest else rest)
    ensures (forall i :: 0 <= i < |terms| ==> ParseTerm(terms[i], allowed).None?) <==> r == []
  {
    if r == [] {
      forall i | 0 <= i < |terms| ensures ParseTerm(terms[i], allowed).None? {
        if i > 0 {
          assert terms[i] == terms[1..][i - 1];
        }
      }
    } else if ParseTerm(terms[0], allowed).None? {
      var j :| 0 <= j < |terms[1..]| && ParseTerm(terms[1..][j], allowed).Some?;
      assert terms[j + 1] == terms[1..][j];
    }
  }

  lemma AcceptedConsComplete(terms: seq<string>, allowed: seq<Field>, rest: seq<OrderTerm>, r: seq<OrderTerm>)
    requires |terms| > 0
    requires forall i :: 0 <= i < |terms[1..]| && ParseTerm(terms[1..][i], allowed).Some? ==>
      ParseTerm(terms[1..][i], allowed).value in rest
    requires r == (if ParseTerm(terms[0], allowed).Some? then [ParseTerm(terms[0], allowed).value] + rest else rest)
    ensures forall i :: 0 <= i < |terms| && ParseTerm(terms[i], allowed).Some? ==>
      ParseTerm(terms[i], allowed).value in r
  {
    forall i | 0 <= i < |terms| && ParseTerm(terms[i], allowed).Some?
      ensures ParseTerm(terms[i], allowed).value in r
    {
      if i > 0 {
        assert terms[i] == terms[1..][i - 1];
      }
    }
  }

  lemma AcceptedConsSound(terms: seq<string>, allowed: seq<Field>, rest: seq<OrderTerm>, r: seq<OrderTerm>)
    requires |terms| > 0
    requires forall x :: x in rest ==>
      exists i :: 0 <= i < |terms[1..]| && ParseTerm(terms[1..][i], allowed) == Some(x)
    requires r == (if ParseTerm(terms[0], allowed).Some? then [ParseTerm(terms[0], allowed).value] + rest else rest)
    ensures forall x :: x in r ==> exists i :: 0 <= i < |terms| && ParseTerm(terms[i], allowed) == Some(x)
  {
    forall x | x in r ensures exists i :: 0 <= i < |terms| && ParseTerm(terms[i], allowed) == Some(x) {
      if x in rest {
        var j :| 0 <= j < |terms[1..]| && ParseTerm(terms[1..][j], allowed) == Some(x);
        assert terms[j + 1] == terms[1..][j];
      } else {
        assert ParseTerm(terms[0], allowed) == Some(x);
      }
    }
  }

  /** A single term contributes its parse, or nothing. */
  lemma AcceptedTermsSingle(t: string, allowed: seq<Field>)
    ensures AcceptedTerms([t], allowed) ==
      (if ParseTerm(t, allowed).Some? then [ParseTerm(t, allowed).value] else [])
  {
    assert [t][1..] == [];
  }

  /**
    Filtering the terms commutes with concatenation, so accepted terms keep
    the order the client gave them in. With `AcceptedTermsSingle` this pins
    `AcceptedTerms` down completely.
  */
  lemma {:induction false} AcceptedTermsAppend(a: seq<string>, b: seq<string>, allowed: seq<Field>)
    ensures AcceptedTerms(a + b, allowed) == AcceptedTerms(a, allowed) + AcceptedTerms(b, allowed)
    decreases |a|
  {
    if |a| == 0 {
      assert a + b == b;
    } else {
      assert (a + b)[0] == a[0];
      assert (a + b)[1..] == a[1..] + b;
      AcceptedTermsAppend(a[1..], b, allowed);
    }
  }

  /**
    The ordering a listing uses: the accepted terms, or the view's default
    when none is accepted. Any field outside the whitelist is ignored.
  */
  function Ordering(terms: seq<string>, allowed: seq<Field>, default: seq<OrderTerm>): (r: seq<OrderTerm>)
    ensures AcceptedTerms(terms, allowed) == [] ==> r == default
    ensures AcceptedTerms(terms, allowed) != [] ==> r == AcceptedTerms(terms, allowed)
    ensures r != default ==> forall i :: 0 <= i < |r| ==> r[i].field in allowed
  {
    var accepted := AcceptedTerms(terms, allowed);
    if accepted == [] then default else accepted
  }

  /** A whitelisted field the client asks for is sorted on, in the direction asked. */
  lemma WhitelistedFieldHonoured(terms: seq<string>, allowed: seq<Field>, default: seq<OrderTerm>,
                                 f: Field, descending: bool)
    requires f in allowed
    requires (if descending then "-" + f.Key() else f.Key()) in terms
    ensures OrderTerm(f, descending) in Ordering(terms, allowed, default)
  {
    WhitelistedTermAccepted(f, allowed);
    var i :| 0 <= i < |terms| && terms[i] == (if descending then "-" + f.Key() else f.Key());
    assert ParseTerm(terms[i], allowed) == Some(OrderTerm(f, descending));
  }

  /** A term of the ordering in use names a whitelisted field or comes from the default. */
  lemma OrderedFieldAllowed(terms: seq<string>, allowed: seq<Field>, default: seq<OrderTerm>, t: OrderTerm)
    requires t in Ordering(terms, allowed, default)
    ensures t.field in allowed || t in default
  {
    var r := Ordering(terms, allowed, default);
    var i :| 0 <= i < |r| && r[i] == t;
  }

  /** Products sort only on created_at, price, name or stock_qty, ascending or descending. */
  lemma ProductOrderingWhitelist(terms: seq<string>)
    ensures forall t :: t in Ordering(terms, ProductOrderingFields, ProductDefaultOrdering) ==>
      t.field in {CreatedAt, Price, Name, StockQty}
  {
    forall t | t in Ordering(terms, ProductOrderingFields, ProductDefaultOrdering) ensures t.field in {CreatedAt, Price, Name, StockQty} {
      OrderedFieldAllowed(terms, ProductOrderingFields, ProductDefaultOrdering, t);
    }
  }

  /** A term naming any other field, here `description`, is dropped: the listing stays newest first. */
  lemma ProductOrderingIgnoresOtherFields()
    ensures Ordering(["description"], ProductOrderingFields, ProductDefaultOrdering) == ProductDefaultOrdering
  {
    var fs := ProductOrderingFields;
    assert forall i :: 0 <= i < |fs| ==> |fs[i].Key()| != |"description"|;
    assert ParseTerm("description", fs).None?;
  }

  lemma ExampleKeys()
    ensures "-" + Price.Key() == "-price" && Name.Key() == "name"
  {
  }

  /** `?ordering=-price,name` sorts by price descending, then name ascending. */
  lemma ProductOrderingExample()
    ensures Ordering(["-price", "name"], ProductOrderingFields, ProductDefaultOrdering)
      == [OrderTerm(Price, true), OrderTerm(Name, false)]
  {
    ExampleTermsParsed();
    AcceptedTermsPair("-price", "name", ProductOrderingFields);
  }

  lemma ExampleTermsParsed()
    ensures ParseTerm("-price", ProductOrderingFields) == Some(OrderTerm(Price, true))
    ensures ParseTerm("name", ProductOrderingFields) == Some(OrderTerm(Name, false))
  {
    ExampleKeys();
    WhitelistedTermAccepted(Price, ProductOrderingFields);
    WhitelistedTermAccepted(Name, ProductOrderingFields);
  }

  /** Two terms are accepted one after the other. */
  lemma AcceptedTermsPair(a: string, b: string, allowed: seq<Field>)
    ensures AcceptedTerms([a, b], allowed) ==
      (if ParseTerm(a, allowed).Some? then [ParseTerm(a, allowed).value] else [])
      + (if ParseTerm(b, allowed).Some? then [ParseTerm(b, allowed).value] else [])
  {
    assert [a, b] == [a] + [b];
    AcceptedTermsSingle(a, allowed);
    AcceptedTermsSingle(b, allowed);
    AcceptedTermsAppend([a], [b], allowed);
  }

  /** Categories sort only on name or created_at. */
  lemma CategoryOrderingWhitelist(terms: seq<string>)
    ensures forall t :: t in Ordering(terms, CategoryOrderingFields, CategoryDefaultOrdering) ==>
      t.field in {Name, CreatedAt}
  {
    forall t | t in Ordering(terms, CategoryOrderingFields, CategoryDefaultOrdering) ensures t.field in {Name, CreatedAt} {
      OrderedFieldAllowed(terms, CategoryOrderingFields, CategoryDefaultOrdering, t);
    }
  }

  /** Ordering categories by price is ignored: they stay ordered by name. */
  lemma CategoryOrderingIgnoresPrice()
    ensures Ordering(["price"], CategoryOrderingFields, CategoryDefaultOrdering) == CategoryDefaultOrdering
  {
    var fs := CategoryOrderingFields;
    assert forall i :: 0 <= i < |fs| ==> |fs[i].Key()| != |"price"|;
    assert ParseTerm("price", fs).None?;
  }
}

=== FILE: subsequences.dfy ===
/**
  Order-preserving selection of elements from a sequence. A query-set filter
  keeps some rows of its input and never adds, duplicates or reorders them;
  `IsSubsequence` is the relation that says so.
*/
module Subsequences {

  /** `a` can be obtained from `b` by deleting elements (greedy matching is complete). */
  predicate IsSubsequence<T(==)>(a: seq<T>, b: seq<T>)
    decreases |b|
  {
    if |a| == 0 then true
    else if |b| == 0 then false
    else if a[0] == b[0] then IsSubsequence(a[1..], b[1..])
    else IsSubsequence(a, b[1..])
  }

  /** Every element of a subsequence is an element of the original. */
  lemma {:induction false} SubsequenceMembers<T>(a: seq<T>, b: seq<T>)
    requires IsSubsequence(a, b)
    ensures forall x :: x in a ==> x in b
    decreases |b|
  {
    if |a| == 0 {
    } else if a[0] == b[0] {
      SubsequenceMembers(a[1..], b[1..]);
      assert forall x :: x in a ==> x == a[0] || x in a[1..];
    } else {
      SubsequenceMembers(a, b[1..]);
    }
  }

  /** A subsequence never holds an element more often than the original: nothing is duplicated. */
  lemma {:induction false} SubsequenceMultiset<T>(a: seq<T>, b: seq<T>)
    requires IsSubsequence(a, b)
    ensures multiset(a) <= multiset(b)
    decreases |b|
  {
    if |a| == 0 {
    } else if a[0] == b[0] {
      SubsequenceMultiset(a[1..], b[1..]);
      assert a == [a[0]] + a[1..];
      assert b == [b[0]] + b[1..];
    } else {
      SubsequenceMultiset(a, b[1..]);
      assert b == [b[0]] + b[1..];
    }
  }

  /** Keeping the head of both sequences preserves the relation. */
  lemma SubsequenceCons<T>(x: T, a: seq<T>, b: seq<T>)
    requires IsSubsequence(a, b)
    ensures IsSubsequence([x] + a, [x] + b)
  {
    assert ([x] + a)[1..] == a;
    assert ([x] + b)[1..] == b;
  }

  /** Dropping the head of the original preserves the relation. */
  lemma {:induction false} SubsequenceSkip<T>(x: T, a: seq<T>, b: seq<T>)
    requires IsSubsequence(a, b)
    ensures IsSubsequence(a, [x] + b)
    decreases |b|, 1
  {
    assert ([x] + b)[1..] == b;
    if |a| == 0 {
    } else if a[0] == x {
      // match `x` instead of whatever `a[0]` was matched with in `b`
      SubsequenceDropHead(a, b);
    }
  }

  /** If `a` is a subsequence of `b`, then so is `a` without its head. */
  lemma {:induction false} SubsequenceDropHead<T>(a: seq<T>, b: seq<T>)
    requires |a| > 0
    requires IsSubsequence(a, b)
    ensures IsSubsequence(a[1..], b)
    decreases |b|, 0
  {
    if a[0] == b[0] {
      SubsequenceSkip(b[0], a[1..], b[1..]);
      assert [b[0]] + b[1..] == b;
    } else {
      SubsequenceDropHead(a, b[1..]);
      SubsequenceSkip(b[0], a[1..], b[1..]);
      assert [b[0]] + b[1..] == b;
    }
  }
}

=== FILE: text.dfy ===
/**
  How the framework's text fields read a value: leading and trailing
  whitespace is stripped (`trim_whitespace`), and a value that is empty
  afterwards is blank. Whitespace is the ASCII part of what Python's
  `str.isspace` accepts.
*/
module Text {

  predicate IsSpace(c: char) {
    c == ' ' || 9 <= c as int <= 13 || 28 <= c as int <= 31
  }

  /** Every character at a position in `lo..hi` is whitespace. */
  predicate SpaceBetween(s: string, lo: int, hi: int) {
    forall k :: lo <= k < hi && 0 <= k < |s| ==> IsSpace(s[k])
  }

  /** Every character is whitespace (the empty string included). */
  predicate AllSpace(s: string) {
    SpaceBetween(s, 0, |s|)
  }

  /** Neither end is whitespace: stripping leaves the string alone. */
  predicate Unpadded(s: string) {
    s == [] || (!IsSpace(s[0]) && !IsSpace(s[|s| - 1]))
  }

  /** The position of the first non-whitespace character at or after `i`, or `|s|`. */
  function SkipSpaces(s: string, i: nat): (n: nat)
    requires i <= |s| && SpaceBetween(s, 0, i)
    ensures i <= n <= |s| && SpaceBetween(s, 0, n)
    ensures n == |s| || !IsSpace(s[n])
    decreases |s| - i
  {
    if i == |s| || !IsSpace(s[i]) then i else SkipSpaces(s, i + 1)
  }

  /** Walking back from `j` over whitespace, but not past `lo`: where the trailing padding starts. */
  function BackSpaces(s: string, lo: nat, j: nat): (m: nat)
    requires lo <= j <= |s| && SpaceBetween(s, j, |s|)
    ensures lo <= m <= j && SpaceBetween(s, m, |s|)
    ensures m == lo || !IsSpace(s[m - 1])
    decreases j
  {
    if j == lo || !IsSpace(s[j - 1]) then j else BackSpaces(s, lo, j - 1)
  }

  /**
    `str.strip()`: the string without its leading and trailing whitespace.
    The result is a slice of the input with only whitespace cut off on either
    side; it is empty exactly when the input is all whitespace, and a string
    with no padding comes back unchanged. `TrimCharacterised` shows these
    facts pin the result down.
  */
  function Trim(s: string): (r: string)
    ensures Unpadded(r)
    ensures r == [] <==> AllSpace(s)
    ensures Unpadded(s) ==> r == s
    ensures |r| <= |s|
    ensures exists i, j :: 0 <= i <= j <= |s| && r == s[i..j] && SpaceBetween(s, 0, i) && SpaceBetween(s, j, |s|)
  {
    var n := SkipSpaces(s, 0);
    var m := BackSpaces(s, n, |s|);
    assert Unpadded(s) ==> n == 0 && m == |s|;
    assert s[0..|s|] == s;
    s[n..m]
  }

  /**
    Stripping is determined by its contract: a slice with no padding of its
    own and only whitespace outside it is the stripped value.
  */
  lemma TrimCharacterised(s: string, i: nat, j: nat)
    requires i <= j <= |s| && SpaceBetween(s, 0, i) && SpaceBetween(s, j, |s|)
    requires Unpadded(s[i..j])
    ensures Trim(s) == s[i..j]
  {
    var n := SkipSpaces(s, 0);
    var m := BackSpaces(s, n, |s|);
    if i < j {
      assert s[i..j][0] == s[i] && s[i..j][j - i - 1] == s[j - 1];
      assert n == i;
      assert m == j;
    } else {
      assert n == |s|;
    }
  }

  /** Stripping twice is stripping once. */
  lemma TrimIdempotent(s: string)
    ensures Trim(Trim(s)) == Trim(s)
  {
  }

  /** Two values that keep the same slice between whitespace-only padding read the same. */
  lemma TrimSameSlice(s: string, i: nat, j: nat, t: string, i': nat, j': nat)
    requires i <= j <= |s| && Trim(s) == s[i..j]
    requires i' <= j' <= |t| && SpaceBetween(t, 0, i') && SpaceBetween(t, j', |t|)
    requires t[i'..j'] == s[i..j]
    ensures Trim(t) == Trim(s)
  {
    assert Unpadded(Trim(s));
    TrimCharacterised(t, i', j');
  }

  /** One more whitespace character in front widens the leading padding and shifts the rest. */
  lemma ConsPadding(c: char, s: string, i: nat, j: nat)
    requires IsSpace(c) && i <= j <= |s|
    requires SpaceBetween(s, 0, i) && SpaceBetween(s, j, |s|)
    ensures SpaceBetween([c] + s, 0, i + 1) && SpaceBetween([c] + s, j + 1, |s| + 1)
    ensures ([c] + s)[i + 1..j + 1] == s[i..j]
  {
    var t := [c] + s;
    forall k | 0 <= k < i + 1 && k < |t| ensures IsSpace(t[k]) {
      if k > 0 {
        assert 0 <= k - 1 < i && k - 1 < |s|;
        assert t[k] == s[k - 1];
      } else {
        assert t[0] == c;
      }
    }
    forall k | j + 1 <= k < |t| ensures IsSpace(t[k]) {
      assert j <= k - 1 < |s|;
      assert t[k] == s[k - 1];
    }
  }

  /** One more whitespace character behind widens the trailing padding. */
  lemma SnocPadding(s: string, c: char, i: nat, j: nat)
    requires IsSpace(c) && i <= j <= |s|
    requires SpaceBetween(s, 0, i) && SpaceBetween(s, j, |s|)
    ensures SpaceBetween(s + [c], 0, i) && SpaceBetween(s + [c], j, |s| + 1)
    ensures (s + [c])[i..j] == s[i..j]
  {
    var t := s + [c];
    forall k | 0 <= k < i ensures IsSpace(t[k]) {
      assert k < |s|;
      assert t[k] == s[k];
    }
    forall k | j <= k < |t| ensures IsSpace(t[k]) {
      if k < |s| {
        assert t[k] == s[k];
      } else {
        assert t[k] == c;
      }
    }
  }

  /** Whitespace in front of a value does not change what the framework reads. */
  lemma {:induction false} TrimIgnoresLeadingSpace(c: char, s: string)
    requires IsSpace(c)
    ensures Trim([c] + s) == Trim(s)
  {
    var i, j :| 0 <= i <= j <= |s| && Trim(s) == s[i..j] && SpaceBetween(s, 0, i) && SpaceBetween(s, j, |s|);
    ConsPadding(c, s, i, j);
    TrimSameSlice(s, i, j, [c] + s, i + 1, j + 1);
  }

  /** Whitespace after a value does not change what the framework reads either. */
  lemma {:induction false} TrimIgnoresTrailingSpace(s: string, c: char)
    requires IsSpace(c)
    ensures Trim(s + [c]) == Trim(s)
  {
    var i, j :| 0 <= i <= j <= |s| && Trim(s) == s[i..j] && SpaceBetween(s, 0, i) && SpaceBetween(s, j, |s|);
    SnocPadding(s, c, i, j);
    TrimSameSlice(s, i, j, s + [c], i, j);
  }

  /** Stripping cuts whitespace only: a character that is not whitespace is in the stripped value exactly when it is in the value. */
  lemma TrimKeepsNonSpace(s: string, c: char)
    requires !IsSpace(c)
    ensures c in Trim(s) <==> c in s
  {
    var i, j :| 0 <= i <= j <= |s| && Trim(s) == s[i..j] && SpaceBetween(s, 0, i) && SpaceBetween(s, j, |s|);
    if c in s {
      var k :| 0 <= k < |s| && s[k] == c;
      assert !IsSpace(s[k]) && SpaceBetween(s, 0, i) && SpaceBetween(s, j, |s|);
      assert i <= k < j;
      assert s[i..j][k - i] == c;
    }
  }
}

=== FILE: wrappers.dfy ===
/** Option and Result types shared by the catalog modules. */
module Wrappers {

  /** An optional value: a payload key that may be absent, a query parameter that may be unset. */
  datatype Option<+T> = None | Some(value: T)

  /** The outcome of an operation that can be refused with an error value. */
  datatype Result<+R, +E> = Success(value: R) | Failure(error: E)
}
